=== FILE: README.md ===
# Faloo chapter fetcher — a verified model

The Faloo chapter fetcher is a browser extension that copies a novel chapter from a
Faloo reading page. It has two parts:

- The **page agent** (`content.js`) runs inside the chapter page. It decides whether the
  page is a plain-text chapter or a VIP chapter. A VIP chapter is drawn as background
  images. The agent puts an action button on the page and answers the popup's
  `processChapterForPopup` request.
  - For a text chapter it reads the container's text.
  - For a VIP chapter it runs a pipeline:
    - It asks the background relay for a `data:` URL for every image div, and writes
      the URLs into the divs' inline styles.
    - It detaches the advertising images.
    - It rasterises the chapter area and sends the picture to an OCR endpoint.
    - It picks the recognised text out of the reply.
    - Whatever happened, it writes the original styles back, re-inserts the detached
      images and re-enables the button. The re-insertion goes in removal order. That
      order can fail when one detached image directly followed another: the
      `insertBefore` for the first of the pair gets a detached reference node and
      throws. The images re-inserted before it are back, but it and every image after
      it stay off the page, and the button stays disabled (see "## Findings"). For the
      source's order, the model proves exact restoration when no such pair exists (a
      sufficient condition) and exhibits a two-image page on which it fails. For the
      corrected order it proves exact restoration in every case.
  - A run that gets past its guards then copies `Title: <title>`, a blank line and the
    text to the clipboard, or replies to the popup, and always broadcasts the result as
    `updatePopupDisplay`. A run stopped by a guard (no key, no image area, no image
    divs) only answers the popup.
- The **popup** (`popup.js`) has three parts:
  - An API-key field with save and show/hide buttons, backed by `chrome.storage.local`.
  - A fetch button that sends the request to the active tab and shows the reply.
  - A copy button that refuses to copy error displays.

The model has these modules:

| module | models |
|---|---|
| `Wrappers` | `Option` and `Result` |
| `Strings` | JavaScript `trim`, `startsWith`, `endsWith`, `includes` and string truthiness |
| `CssUrl` | `extractUrlFromCss`; its regular expression is matched by hand and proved against a declarative statement of the match |
| `Ocr` | picking the OCR text out of `choices[0].message.content` |
| `Chapter` | chapter classification, `init`, the message listener, the title fallback, the clipboard format, the error mapping, and the reply/copy/broadcast tail that both handlers share |
| `Dom` | the element tree as a map from element to child list, with `removeChild` and `insertBefore` on it |
| `Vip` | `handleVipChapter`: the pre-fetch loop and the pipeline, plus the class `Vip.Page`, whose methods update the page's styles, tree and button |
| `Popup` | the popup's functions, plus the class `Popup.Popup`, whose methods update its fields |

Some inputs come from outside the code: the relay's answers, the rasteriser's result,
the OCR reply, clipboard outcomes, storage and tab-query failures, and the elements'
texts. The model takes each of these as a parameter.

## Model

| member | source | states |
|---|---|---|
| Strings.Trim | content.js:124 | The result is the infix of the input left after the white space at both ends is dropped, and it neither starts nor ends with white space. |
| Strings.TrimIdempotent | content.js:124 | Trimming twice gives the same as trimming once. |
| Strings.TrimEmptyIff | popup.js:30-31 | A string trims to empty exactly when every character is white space. |
| CssUrl.LazyBodyEnd | content.js:166 | A found end closes the body with the captured quote and `)`. |
| CssUrl.LazyBodyEndShortest | content.js:166 | The lazy `(.*?)` finds an end exactly when a line-terminator-free body closed by `\1\)` exists, and then the shortest one. |
| CssUrl.MatchAt | content.js:166 | The captured URL fits inside the input after `url(` and before `)`. |
| CssUrl.MatchAtComplete | content.js:166 | Every match of `url\((['"]?)(.*?)\1\)` at a position makes the matcher succeed there. |
| CssUrl.MatchAtSound | content.js:166 | What the matcher returns is group 2 of a real match, with the shortest body; an unquoted result means no quoted match exists at that position. |
| CssUrl.NoQuotedMatch | content.js:166 | When the quoted attempt finds no closing quote and `)`, no quoted match exists at that position. |
| CssUrl.FirstMatchFrom | content.js:166 | The search for the first match at or after a position: a found URL fits in the rest of the input after `url(` and before `)`. |
| CssUrl.FirstMatchFromLeftmost | content.js:166 | The search succeeds exactly when some position matches, and it returns the leftmost match. |
| CssUrl.NormalizeProtocol | content.js:168 | A protocol-relative URL gets `https:` in front; other URLs are kept; the result never starts with `//`. |
| CssUrl.ExtractUrlFromCss | content.js:164-172 | A missing or empty style gives nothing; a result never starts with `//`. |
| CssUrl.ExtractWithoutMatch | content.js:164-172 | A style value without any match gives `null`. |
| CssUrl.ExtractFromMatch | content.js:164-172 | Any match gives a result, namely the normalised group 2 of the leftmost match: the matcher succeeds at that position, and the regular expression has no match before it. |
| CssUrl.NoMatchBefore | content.js:166 | Where the matcher fails at every position before a given one, the regular expression has no match there. |
| CssUrl.CssUrlValue | content.js:233 | The written value is the URL wrapped in `url("` and `")`. |
| CssUrl.ExtractCssUrlValue | content.js:164-172 | Reading a written `url("…")` value back gives the protocol-normalised URL, for any URL without a double quote or line terminator. |
| CssUrl.ExtractDataUrl | content.js:233 | A data URL written into a style is read back unchanged. |
| Ocr.FindTextPart | content.js:279 | The result is the first part whose type is `text`; there is none exactly when no part has that type. |
| Ocr.RecognisedText | content.js:275-282 | A string reply gives its trimmed text, which is non-empty exactly when the reply has a non-white-space character. An array reply gives the trimmed text of its first `text` part when that text is truthy, else empty. A missing or other-typed reply gives empty. |
| Ocr.SelectText | content.js:275-284 | A success carries exactly the recognised text, which is non-empty and trimmed. The "no text" error comes exactly when the recognised text is empty, so a missing, other-typed or empty-array reply gives it, and a string reply succeeds exactly when it is not blank. |
| Ocr.StringAndSinglePartAgree | content.js:275-281 | A string reply and a one-part array holding the same text give the same result. |
| Ocr.FirstTextPartDecides | content.js:278-280 | Only the first `text` part counts, even when it is empty and a later part has text. |
| Ocr.BlankTextFails | content.js:275-284 | A blank reply, as a string or as a text part, is an error. |
| Chapter.Classify | content.js:32-34 | A page is VIP exactly when it has the image area and is not a text chapter; it is text exactly when the container has the `readline` class; otherwise it is undetermined. |
| Chapter.Init | content.js:21-50 | Without the title or the container, init exits. Otherwise it adds the VIP button, adds the text button, or does nothing, each exactly for its chapter type. |
| Chapter.OnMessage | content.js:341-376 | Only `processChapterForPopup` is handled. Then, in order: a missing key, a missing container and an undetermined type are answered with their errors; VIP and text pages go to their handlers, the VIP one with the request's key. |
| Chapter.ApiKeyCheckedFirst | content.js:345-356 | Without a key the answer does not depend on the page, text chapters included. |
| Chapter.ChapterTitle | content.js:124 | The trimmed title when it is non-empty, else the fallback; a non-empty fallback gives a non-empty title. |
| Chapter.FormatChapter | content.js:128 | The clipboard text is `Title: `, the title, a blank line and the content, with nothing else. |
| Chapter.SpecificError | content.js:147-151 | A `NotAllowedError` about the document not being focused becomes the focus hint; any other error keeps its message. |
| Chapter.Deliver | content.js:286-318 | The popup gets a reply exactly when it asked, and the reply equals the broadcast. Text is copied exactly when the button asked, the run succeeded and the clipboard write worked. A failure, including a failed clipboard write, is broadcast with its mapped message and the title. |
| Chapter.HandleTextChapter | content.js:118-162 | The title is the trimmed title text or `Untitled`, and the text is the trimmed container text. For the popup, the chapter is the reply and the success broadcast, and nothing is copied. For the on-page button there is no reply, and the chapter is copied exactly when the clipboard write works. Then the broadcast is the success, and otherwise the write's error, mapped for the user, under the title. |
| Dom.InsertBefore | content.js:326-330 | `insertBefore` fails exactly when the reference node is not a child. Otherwise it adds exactly the node; with no reference node it appends. |
| Dom.Reinsertion | content.js:326-330 | One re-insertion changes only the recorded parent's child list, and fails exactly when the recorded next sibling is not among its children. |
| Dom.RemoveChild | content.js:243 | `removeChild` takes the node out at its position and keeps every other child in order; as a multiset, exactly one occurrence of the node goes. |
| Dom.Reinsert | content.js:325-331 | The restoration loop as written never loses a child anywhere. When every record went back, each recorded image is a child of its recorded parent. A stop means some record had a next sibling, because `appendChild` cannot throw. |
| Dom.ReinsertReverse | content.js:325-331 | Re-insertion last record first keeps the same three guarantees as the loop as written. |
| Dom.RunExtends | content.js:325-331 | A run that starts with one successful re-insertion inherits the rest of the run's guarantees. |
| Dom.ReinsertInOrder | content.js:325-331 | The loop as written re-inserts in removal order and stops at the first failure, with the result the specification function gives. |
| Dom.ReinsertLastFirst | content.js:325-331 | The corrected loop re-inserts the last removal first, with the result the specification function gives. |
| Dom.RemovalStep | content.js:240-244 | Removing the next image from its parent gives the page with one more image detached, and its recorded next sibling is the next sibling in the original page that was not detached. |
| Dom.NextStillAttached | content.js:240-243 | While the removal runs, the next image still has a parent, and it is the parent from the original page. |
| Dom.RemovedOneMore | content.js:241-243 | Each removal and its record extend the removal invariant by one image. |
| Dom.ReinsertionStep | content.js:326-330 | Re-inserting the record of an image gives the page with that image attached again. |
| Dom.ForwardRestores | content.js:325-331 | Re-insertion in removal order restores the page exactly whenever no removed image directly follows another removed image. This is a sufficient condition; `Dom.ForwardRestoreFailsOnAdjacentImages` gives one adjacent pair on which it fails. |
| Dom.ReverseRestores | content.js:325-331 | Re-insertion last first restores the page exactly and succeeds, whichever images were removed. |
| Dom.ForwardRestoreFailsOnAdjacentImages | content.js:325-331 | On one parent with children `[1, 2]`, both removed in document order, re-insertion in removal order fails and leaves both detached, while re-insertion last first restores the page. |
| Vip.ButtonApiKey | content.js:52-78 | The on-page button gets a key exactly when storage is available, the read did not fail and a truthy key is stored, and then it is the stored key. |
| Vip.PrefetchFrom | content.js:222-238 | The loop from a given div on: it never adds or drops a styled div, never forgets a recorded original, and does nothing once a request has thrown. |
| Vip.Prefetched | content.js:222-238 | The whole pre-fetch loop leaves the set of styled divs unchanged. |
| Vip.RestoredStyles | content.js:321-323 | Every recorded original is written back, every other div keeps its style, and no div is added besides the recorded ones. |
| Vip.PrefetchStep | content.js:224-237 | A div whose style has no image URL is left alone. Otherwise its original style is recorded, and its URL is appended to the requests. A rejection records the relay's error and changes no style. A successful reply with a data URL rewrites the div's style to `url("<dataUrl>")` and counts one more processed image. Any other reply changes neither the styles nor the count. |
| Vip.VisitImageDiv | content.js:224-237 | The loop body computes exactly one pre-fetch step. |
| Vip.PrefetchKeepsOriginals | content.js:222-238 | After the loop, every recorded original is the div's style before the loop, and a div with no record still shows its original style. |
| Vip.PrefetchThenRestore | content.js:222-323 | The pre-fetch loop followed by the style restore gives back exactly the styles before the run. |
| Vip.PrefetchRequestsRecordedUrls | content.js:225-231 | There are as many requests as recorded divs, and every requested URL is the one some recorded div's original style names. |
| Vip.PrefetchRequestsInOrder | content.js:222-238 | The requests are exactly the URLs named by the divs' original styles, one per div that names one, in `divs` order. They cover every div when no request was rejected, and otherwise the divs up to and including the one whose request was rejected with the loop's error. |
| Vip.PrefetchWritesFetchedImages | content.js:231-236 | A div's style changes only when the relay answered it with success. |
| Vip.StyleKeptFrom | content.js:223-237 | A div the rest of the loop does not visit keeps its style. |
| Vip.WritesReplyFrom | content.js:223-237 | From any point of the loop before a rejection, a div answered with a data URL ends up showing it. |
| Vip.PrefetchWritesReplies | content.js:231-233 | Every div whose original style names an image and which the relay answered with a data URL, before any rejection, ends the loop showing `url("<dataUrl>")`. |
| Vip.PrefetchRequestsEveryImage | content.js:222-238 | When the relay never rejects, the loop ends without error and every div with an image URL is requested and recorded. |
| Vip.PrefetchProcessedBound | content.js:222-235 | The count of fetched images never exceeds the number of image divs. |
| Vip.PrefetchErrorFromRelay | content.js:222-238 | The loop ends with an error only when the relay rejected a request, and the error is the one the relay gave. |
| Vip.RelayErrorReported | content.js:222-318 | The first rejection for a div with an image ends the run with that very error. |
| Vip.ValidImage | content.js:250 | An accepted picture is a truthy data URL, the empty-canvas `data:,` is refused, and every `data:image/` URL is accepted. |
| Vip.OcrApiError | content.js:269-272 | The message has the OCR-error prefix, then the API's message when present, else the HTTP status text. |
| Vip.Recognise | content.js:246-284 | Recognition succeeds exactly when the raster is a usable image and the OCR reply holds text, and the text is the one the OCR reply selects. A missing library, a render error and an empty image each give their own error. An HTTP error gives exactly the OCR-error message of the API's message or the status text. A failed request passes its error on unchanged. A reply without text gives the "no text" error. |
| Vip.Outcome | content.js:221-284 | A pre-fetch error ends the `try` block; otherwise its result is the recognition result. |
| Vip.EarlyReturn | content.js:177-216 | A guard that fails answers only the popup, with the failure, and copies, broadcasts and requests nothing. |
| Vip.Completed | content.js:221-318 | A run past the guards always broadcasts, and answers the popup exactly when it asked, with the broadcast. A success broadcast carries the title and the recognised text, and comes exactly when the outcome succeeded and the text got out. A failed outcome broadcasts its own error, mapped for the user, under the title; so does a clipboard write that threw. The chapter is copied exactly when the run was not for the popup, the outcome succeeded and the write worked, and the copy is the formatted chapter. The report records the relay requests of the loop. |
| Vip.Reset | content.js:332-335 | The button, when there is one, is enabled again under the VIP caption. |
| Vip.Page.ResetButton | content.js:332-335 | Only the button changes, and it becomes the reset button. |
| Vip.Page.PrefetchImages | content.js:222-238 | The loop computes the pre-fetch result for the styles before it, and only the styles change. |
| Vip.Page.RemoveProblemImages | content.js:240-244 | The page loses exactly the listed images, and the records describe each removal in order. |
| Vip.Page.RestoreStyles | content.js:321-323 | Every recorded original is written back, and only the styles change. |
| Vip.Page.Attempt | content.js:221-284 | The try block: pre-fetch; if the relay rejected, nothing is detached; otherwise the images are detached with their records. The outcome is the specification's outcome. |
| Vip.Page.CleanupAsWritten | content.js:319-337 | The finally block as written: styles restored, records re-inserted in removal order, and the button reset only when no re-insertion threw. |
| Vip.Page.RunPipelineAsWritten | content.js:221-337 | The source's run. The styles always come back, and the report is the completed-run report. After a relay rejection nothing was detached, and the tree is unchanged. Otherwise the removal records describe the removals, and the tree is what in-order re-insertion makes of the page with the images detached. The button is reset exactly when that re-insertion succeeded. The tree and the button come back exactly when no removed image directly followed another removed image. |
| Vip.Page.AsWrittenOutcome | content.js:319-331 | After a relay rejection, re-insertion has nothing to do and succeeds. With no removed image directly following another, in-order re-insertion gives back the original page. |
| Vip.Page.Cleanup | content.js:319-337 | The corrected finally block: styles restored, records re-inserted last first, and the button reset only when re-insertion succeeded. |
| Vip.Page.RunPipeline | content.js:221-337 | The run with the corrected re-insertion order: afterwards the styles and the element tree are exactly as before, the button is reset, and the report is the completed-run report. |
| Vip.Page.HandleVipChapter | content.js:175-338 | Missing key, missing area and no image divs each end early with their message. Otherwise the corrected pipeline runs. In every case the page is left as it was and the button is reset. |
| Popup.StoredKey | popup.js:21 | The loaded key is present exactly when storage holds the key name, and then it is the stored value. |
| Popup.KeyToSave | popup.js:30-31 | A key is saved exactly when the field has a non-white-space character; the saved key is the trimmed field and is truthy. |
| Popup.SavedKeyLoads | popup.js:21-32 | A saved key is what the next load finds, and it is truthy. |
| Popup.Toggled | popup.js:49-57 | A masked field becomes shown with caption `Hide`; anything else becomes masked with caption `Show`. |
| Popup.ToggleTwice | popup.js:49-57 | Toggling twice gives back the input type. |
| Popup.TabUnusable | popup.js:76 | A tab is usable exactly when the query worked and its first tab has a non-zero id; a failed or empty query is refused. |
| Popup.IsChapterUrl | popup.js:83 | A URL is a chapter URL exactly when it is present, ends with `.html` and holds `b.faloo.com/` wholly before that suffix. |
| Popup.HostBeforeSuffix | popup.js:83 | In any string that contains `b.faloo.com/` and ends with `.html`, an occurrence of the host ends before the suffix begins. |
| Popup.ErrorOf | popup.js:107 | The response's error when it is a truthy failure message, else the default message; never empty. |
| Popup.TitleOf | popup.js:108 | The failure's title when present, else empty. |
| Popup.FetchErrorText | popup.js:108 | The display starts with `Error: `, the message and a newline, ends with that newline, `Title: ` and the title, and holds nothing else. |
| Popup.FetchErrorTextDetermined | popup.js:108 | Any text with that prefix, suffix and length is exactly the fetch-error display. |
| Popup.BroadcastErrorText | popup.js:162 | The display starts with the content-script prefix, the error (or `Unknown error`) and a newline, ends with that newline and the title line, and holds nothing else. |
| Popup.CopyGuard | popup.js:120-135 | The text is copied exactly when it is non-empty and does not start with `Error:`; it is refused exactly when it starts with `Error:`; nothing is copied exactly when it is empty. |
| Popup.FetchErrorNotCopied | popup.js:108-122 | The display of a failed fetch is never copied. |
| Popup.ContentScriptErrorsCopied | popup.js:120-135 | The error displays that start `Error from content script:` pass the copy guard. |
| Popup.Popup.constructor | popup.js:3-12 | The popup opens with an empty key field and nothing displayed, the field masked under the caption `Show`. |
| Popup.Popup.Load | popup.js:15-26 | A failed read reports the load error. A stored key fills the field and reports it as set; no key reports it as not set. Nothing else changes. |
| Popup.Popup.SaveKey | popup.js:29-47 | An empty key is refused. A failed write reports the error. A save stores the trimmed key, reports success and masks the field. A masked field stays masked. |
| Popup.Popup.ToggleShow | popup.js:49-57 | The field's type and the caption become the toggled pair, and the caption always matches the masking. |
| Popup.Popup.FetchChapter | popup.js:59-118 | The request goes out exactly when the key was read, is truthy and the tab is a usable chapter tab, and it carries the stored key. Each guard shows its error. A send error, a success and a failure each produce their display and status, and a success is copied exactly when the clipboard write worked. |
| Popup.Popup.Copy | popup.js:120-135 | The displayed text is copied exactly when the guard allows it and the write works; each case shows its status; only the status changes. |
| Popup.Popup.OnBroadcast | popup.js:154-169 | An `updatePopupDisplay` message shows the chapter or the content-script error; other messages change nothing. |

## Left out

- I/O and browser APIs are parameters of the model:
  - `chrome.storage`, `chrome.tabs` and `chrome.runtime` callbacks, including `lastError`.
  - `navigator.clipboard`, and the `fetch` calls to the relay and the OCR endpoint.
  - The page's element texts.
- `domtoimage` rendering and its quality option: only its outcome is modelled (a data URL, a thrown error, or the library missing).
- The OCR request body, its headers and the JSON parsing: only the reply's status text, its error message and its `content` are modelled.
- Notifications, `alert`, `console` logging, the status divs' styling, and the `setTimeout` auto-hide of status lines: they only show things.
- Vip.Page.HandleVipChapter: sets the `Fetching Images...` caption of content.js:191-194, but its contract states only the button it ends with, because the corrected `finally` block always overwrites that caption.
- Iteration order of `originalStyles`: the keys are distinct elements, so the order of the writes does not change the result.
- A thrown `chrome.runtime` being unavailable is modelled as a rejected relay request, and a missing relay response as an unsuccessful reply.
- Concurrency: the model does not cover two runs interleaving, or the page changing during a run.
- `background.js` (the relay itself) is not part of this model.
- Popup.Popup.constructor: the masked field and the `Show` caption it starts with come from the popup's HTML page, which is not part of this model. popup.js:3-12 only looks the elements up.
- Vip.Page.Cleanup: re-inserts last record first, the corrected order of "## Findings". Vip.Page.CleanupAsWritten is the source's order.
- Vip.Page.RunPipeline: uses the corrected `Cleanup`, so its unconditional restoration is a property of the corrected order. Vip.Page.RunPipelineAsWritten is the source's run, with restoration proved only when no removed image directly followed another.
- Vip.Page.HandleVipChapter: runs the corrected pipeline; with the source's order, the page and the button come back only under the condition stated for Vip.Page.RunPipelineAsWritten.
- Popup.Popup.OnBroadcast: assumes the `chapterDisplay` element exists, as the popup's own page always provides it.
- Vip.Page: the re-insertion loops are methods on values in `Dom` (`Dom.ReinsertInOrder`, `Dom.ReinsertLastFirst`) that the page method calls. The model does not capture them updating the page's tree in place.

## Findings

| source | as written | input that shows it | evidently intended | confidence | as-written member | corrected member |
|---|---|---|---|---|---|---|
| content.js:325-331 | The `finally` block re-inserts the removed images in the order they were removed, each before the `nextSibling` recorded when it was removed. | One parent with children `[1, 2]`, both of them problem images. Image 1 is recorded with next sibling 2, which is itself detached. So `insertBefore(1, 2)` throws. Both images stay off the page, and the button reset after the loop is skipped. | The page restored exactly, and the button re-enabled. Re-inserting the records last one first achieves this for any set of removed images. | not executed | Dom.ForwardRestoreFailsOnAdjacentImages | Dom.ReverseRestores |

`Vip.Page.RunPipelineAsWritten` runs the pipeline with the source's order. `Vip.Page.RunPipeline` and `Vip.Page.HandleVipChapter` use the corrected order.

=== FILE: chapter.dfy ===
/** The page agent's decisions that need no DOM mutation (content.js): chapter
    classification, what `init` does, the `processChapterForPopup` dispatcher, the title
    fallback, the clipboard format, the clipboard error mapping, and how a finished run is
    reported to the popup, the clipboard and the `updatePopupDisplay` broadcast. */
module Chapter {
  import opened Wrappers
  import opened Strings

  datatype ChapterType = Vip | Text | Undetermined

  /** `isVipChapter = hasVipImageArea && !isTextChapter`, then the `if / else if / else`
      of content.js:38-49 and 364-373. */
  function Classify(isTextChapter: bool, hasVipImageArea: bool): (t: ChapterType)
    ensures t == Vip <==> hasVipImageArea && !isTextChapter
    ensures t == Text <==> isTextChapter
    ensures t == Undetermined <==> !isTextChapter && !hasVipImageArea
  {
    if hasVipImageArea && !isTextChapter then Vip
    else if isTextChapter then Text
    else Undetermined
  }

  /** The content container `div.noveContent` as the classification sees it: whether it
      carries the class `readline` and whether it holds a `div.con_img`. */
  datatype Container = Container(hasReadlineClass: bool, hasVipImageArea: bool)

  function TypeOf(c: Container): ChapterType {
    Classify(c.hasReadlineClass, c.hasVipImageArea)
  }

  const VipButtonLabel: string := "OCR & Copy Chapter (VIP)"
  const TextButtonLabel: string := "Copy Chapter (Text)"

  /** What `init` does: give up, inject the action button with a label, or do nothing. */
  datatype InitAction = Exit | AddButton(caption: string) | NoAction

  /** `init()` (content.js:21-50). */
  function Init(titleFound: bool, container: Option<Container>): (a: InitAction)
    ensures a == Exit <==> !titleFound || container.None?
    ensures a == AddButton(VipButtonLabel) <==> titleFound && container.Some? && TypeOf(container.value) == Vip
    ensures a == AddButton(TextButtonLabel) <==> titleFound && container.Some? && TypeOf(container.value) == Text
    ensures a == NoAction <==> titleFound && container.Some? && TypeOf(container.value) == Undetermined
  {
    if !titleFound || container.None? then Exit
    else
      match TypeOf(container.value)
      case Vip => AddButton(VipButtonLabel)
      case Text => AddButton(TextButtonLabel)
      case Undetermined => NoAction
  }

  const ProcessAction: string := "processChapterForPopup"
  const NoApiKeyMessage: string := "API Key not provided by popup."
  const NoContainerMessage: string := "Main content element not found on page."
  const UndeterminedMessage: string := "Chapter type undetermined on this page."

  /** A message from the popup: its `action` and its `apiKey`. */
  datatype Request = Request(action: string, apiKey: Option<string>)

  /** `{success: true, title, content}` or `{success: false, error, title?}`. */
  datatype Response = Success(title: string, content: string) | Failure(error: string, knownTitle: Option<string>)

  /** What the message listener does with a request: nothing, answer at once, or hand the
      request to the VIP or the text handler. */
  datatype Dispatch = Ignored | Respond(response: Response) | RunVip(apiKey: string) | RunText

  /** The `chrome.runtime.onMessage` listener (content.js:341-376). */
  function OnMessage(request: Request, container: Option<Container>): (d: Dispatch)
    ensures d == Ignored <==> request.action != ProcessAction
    ensures (request.action == ProcessAction && !Present(request.apiKey))
              ==> d == Respond(Failure(NoApiKeyMessage, None))
    ensures (request.action == ProcessAction && Present(request.apiKey) && container.None?)
              ==> d == Respond(Failure(NoContainerMessage, None))
    ensures d.RunVip? <==> request.action == ProcessAction && Present(request.apiKey)
                           && container.Some? && TypeOf(container.value) == Vip
    ensures d.RunVip? ==> d.apiKey == request.apiKey.value
    ensures d == RunText <==> request.action == ProcessAction && Present(request.apiKey)
                              && container.Some? && TypeOf(container.value) == Text
    ensures (&& request.action == ProcessAction && Present(request.apiKey) && container.Some?
             && TypeOf(container.value) == Undetermined)
              ==> d == Respond(Failure(UndeterminedMessage, None))
  {
    if request.action != ProcessAction then Ignored
    else if !Present(request.apiKey) then Respond(Failure(NoApiKeyMessage, None))
    else if container.None? then Respond(Failure(NoContainerMessage, None))
    else
      match TypeOf(container.value)
      case Vip => RunVip(request.apiKey.value)
      case Text => RunText
      case Undetermined => Respond(Failure(UndeterminedMessage, None))
  }

  /** The key check comes before any look at the page: without a key the answer is the
      same whatever the page holds, text chapters included. */
  lemma ApiKeyCheckedFirst(request: Request, page1: Option<Container>, page2: Option<Container>)
    requires request.action == ProcessAction && !Present(request.apiKey)
    ensures OnMessage(request, page1) == OnMessage(request, page2)
    ensures OnMessage(request, Some(Container(true, true))).Respond?
  {
  }

  const UntitledText: string := "Untitled"
  const UntitledVip: string := "Untitled VIP Chapter"

  /** `document.querySelector(TITLE_SELECTOR)?.innerText.trim() || fallback`, with the
      title element's visible text given as `titleText` (missing when there is no element). */
  function ChapterTitle(titleText: Option<string>, fallback: string): (t: string)
    ensures titleText.Some? && Trim(titleText.value) != "" ==> t == Trim(titleText.value)
    ensures titleText.None? || Trim(titleText.value) == "" ==> t == fallback
    ensures Truthy(fallback) ==> Truthy(t)
  {
    if titleText.Some? then Or(Trim(titleText.value), fallback) else fallback
  }

  /** The text copied to the clipboard (content.js:128, 288) and shown by the popup
      (popup.js:95, 160): `Title: <title>`, a blank line, then the content. */
  function FormatChapter(title: string, content: string): (r: string)
    ensures |r| == 9 + |title| + |content|
    ensures StartsWith(r, "Title: ")
    ensures r[7..7 + |title|] == title
    ensures r[7 + |title|..9 + |title|] == "\n\n"
    ensures r[9 + |title|..] == content
  {
    "Title: " + title + "\n\n" + content
  }

  /** A thrown JavaScript error: its `name` and its `message`. */
  datatype Error = Error(name: string, message: string)

  const FocusMessage: string := "Could not copy to clipboard: Page not focused. Try using the popup's copy button or click on the page first."

  /** The `specificError` of the catch blocks (content.js:147-151, 306-309). */
  function SpecificError(e: Error): (m: string)
    ensures e.name == "NotAllowedError" && Includes(e.message, "Document is not focused") ==> m == FocusMessage
    ensures !(e.name == "NotAllowedError" && Includes(e.message, "Document is not focused")) ==> m == e.message
  {
    if e.name == "NotAllowedError" && Includes(e.message, "Document is not focused") then FocusMessage
    else e.message
  }

  /** How `navigator.clipboard.writeText` settled. */
  datatype ClipboardWrite = Written | WriteThrew(error: Error)

  /** What a finished run hands out: the reply to the popup (only when the popup asked),
      the text put on the clipboard (only when the on-page button asked), and the
      `updatePopupDisplay` broadcast that is always sent. */
  datatype Delivery = Delivery(reply: Option<Response>, copied: Option<string>, broadcast: Response)

  /** The tail shared by `handleTextChapter` and `handleVipChapter`: given the title and
      either the chapter text or the error thrown so far, copy (on-page button only),
      reply (popup only) and broadcast; a failing clipboard write is caught like any other
      error (content.js:127-160, 286-318). */
  function Deliver(title: string, outcome: Result<string, Error>, fromPopup: bool, clipboard: ClipboardWrite): (d: Delivery)
    ensures d.reply.Some? <==> fromPopup
    ensures fromPopup ==> d.reply == Some(d.broadcast)
    ensures d.copied.Some? <==> !fromPopup && outcome.Ok? && clipboard.Written?
    ensures d.copied.Some? ==> d.copied.value == FormatChapter(title, outcome.value)
    ensures d.broadcast.Success? <==> outcome.Ok? && (fromPopup || clipboard.Written?)
    ensures d.broadcast.Success? ==> d.broadcast == Success(title, outcome.value)
    ensures d.broadcast.Failure? ==> d.broadcast.knownTitle == Some(title)
    ensures outcome.Err? ==> d.broadcast == Failure(SpecificError(outcome.error), Some(title))
    ensures (outcome.Ok? && !fromPopup && clipboard.WriteThrew?)
              ==> d.broadcast == Failure(SpecificError(clipboard.error), Some(title))
  {
    match outcome
    case Err(e) =>
      var failure := Failure(SpecificError(e), Some(title));
      Delivery(if fromPopup then Some(failure) else None, None, failure)
    case Ok(text) =>
      if fromPopup then
        Delivery(Some(Success(title, text)), None, Success(title, text))
      else
        match clipboard
        case Written => Delivery(None, Some(FormatChapter(title, text)), Success(title, text))
        case WriteThrew(e) => Delivery(None, None, Failure(SpecificError(e), Some(title)))
  }

  /** `handleTextChapter` (content.js:118-162), with the title element's and the
      container's visible text given as strings. */
  function HandleTextChapter(titleText: Option<string>, containerText: string, fromPopup: bool,
                             clipboard: ClipboardWrite): (d: Delivery)
    ensures fromPopup ==> d.reply == Some(Success(ChapterTitle(titleText, UntitledText), Trim(containerText)))
    ensures (!fromPopup && clipboard.Written?)
              ==> d.copied == Some(FormatChapter(ChapterTitle(titleText, UntitledText), Trim(containerText)))
    ensures d.broadcast.Success? ==> d.broadcast.title != ""
    ensures fromPopup ==> d.copied.None? && d.broadcast == Success(ChapterTitle(titleText, UntitledText), Trim(containerText))
    ensures !fromPopup ==> d.reply.None?
    ensures d.copied.Some? <==> !fromPopup && clipboard.Written?
    ensures (!fromPopup && clipboard.Written?)
              ==> d.broadcast == Success(ChapterTitle(titleText, UntitledText), Trim(containerText))
    ensures (!fromPopup && clipboard.WriteThrew?)
              ==> d.broadcast == Failure(SpecificError(clipboard.error), Some(ChapterTitle(titleText, UntitledText)))
  {
    var title := ChapterTitle(titleText, UntitledText);
    Deliver(title, Ok(Trim(containerText)), fromPopup, clipboard)
  }
}

=== FILE: css_url.dfy ===
/** `extractUrlFromCss` (content.js:164-172): the first match of the regular expression
    `/url\((['"]?)(.*?)\1\)/` in a CSS `background-image` value, its second group
    taken as the URL, and a protocol-relative `//host/...` URL made `https:`.
    The matcher below follows the regular-expression engine's backtracking order;
    `RegexMatchAt` is a declarative reference for what a match is. */
module CssUrl {
  import opened Wrappers
  import opened Strings

  const Opening: string := "url("

  predicate IsQuote(c: char) {
    c == '\'' || c == '"'
  }

  /** `\1\)` matches at `k`: the captured quote `q` (possibly empty), then `)`. */
  predicate ClosesAt(s: string, k: nat, q: string) {
    k <= |s| && q + ")" <= s[k..]
  }

  /** `.` matches every character of `t`. */
  predicate NoLineTerminator(t: string) {
    forall i :: 0 <= i < |t| ==> !IsLineTerminator(t[i])
  }

  /** The regular expression matches at position `i`, with group 1 equal to `q` and
      group 2 ending at `k` (group 2 starts right after `url(` and the quote). */
  ghost predicate RegexMatchAt(s: string, i: nat, q: string, k: nat) {
    && i + |Opening| <= |s|
    && Opening <= s[i..]
    && (q == "" || (|q| == 1 && IsQuote(q[0])))
    && q <= s[i + |Opening|..]
    && i + |Opening| + |q| <= k <= |s|
    && NoLineTerminator(s[i + |Opening| + |q|..k])
    && ClosesAt(s, k, q)
  }

  /** The lazy `(.*?)` followed by `\1\)`: the first end `k >= j` at which `q + ")"`
      follows, provided no line terminator stands in between. */
  function LazyBodyEnd(s: string, j: nat, q: string): (r: Option<nat>)
    requires j <= |s|
    ensures r.Some? ==> j <= r.value <= |s| && ClosesAt(s, r.value, q)
    decreases |s| - j
  {
    if ClosesAt(s, j, q) then Some(j)
    else if j < |s| && !IsLineTerminator(s[j]) then LazyBodyEnd(s, j + 1, q)
    else None
  }

  /** `LazyBodyEnd` finds the shortest line-terminator-free body that `\1\)` follows,
      and finds none only when there is none. */
  lemma {:induction false} LazyBodyEndShortest(s: string, j: nat, q: string)
    requires j <= |s|
    ensures var r := LazyBodyEnd(s, j, q);
      && (r.Some? ==> NoLineTerminator(s[j..r.value]))
      && (r.Some? ==> forall m :: j <= m < r.value ==> !ClosesAt(s, m, q))
      && (r.None? ==> forall k :: j <= k <= |s| && NoLineTerminator(s[j..k]) ==> !ClosesAt(s, k, q))
    decreases |s| - j
  {
    if ClosesAt(s, j, q) {
      assert s[j..j] == [];
    } else if j < |s| && !IsLineTerminator(s[j]) {
      LazyBodyEndShortest(s, j + 1, q);
      NoLineTerminatorShift(s, j);
    } else {
      NoLineTerminatorBlocked(s, j);
    }
  }

  /** A line-terminator-free stretch starting at a non-terminator is one character
      longer than the stretch after it. */
  lemma NoLineTerminatorShift(s: string, j: nat)
    requires j < |s| && !IsLineTerminator(s[j])
    ensures forall k :: j + 1 <= k <= |s| ==> (NoLineTerminator(s[j..k]) <==> NoLineTerminator(s[j + 1..k]))
  {
    forall k | j + 1 <= k <= |s|
      ensures NoLineTerminator(s[j..k]) <==> NoLineTerminator(s[j + 1..k])
    {
      assert s[j..k] == [s[j]] + s[j + 1..k];
    }
  }

  /** At the end of the string, or at a line terminator, only the empty stretch is free. */
  lemma NoLineTerminatorBlocked(s: string, j: nat)
    requires j <= |s| && (j == |s| || IsLineTerminator(s[j]))
    ensures forall k :: j < k <= |s| ==> !NoLineTerminator(s[j..k])
  {
    forall k | j < k <= |s|
      ensures !NoLineTerminator(s[j..k])
    {
      assert s[j..k][0] == s[j];
    }
  }

  /** Group 2 when the regular expression is tried at position `i`: the optional quote
      is taken first (it is greedy), and dropped only when no match follows it. */
  function MatchAt(s: string, i: nat): (r: Option<string>)
    requires i <= |s|
    ensures r.Some? ==> |r.value| + |Opening| + 1 <= |s| - i
  {
    if !(i + |Opening| <= |s| && Opening <= s[i..]) then None
    else
      var j := i + |Opening|;
      var quoted := if j < |s| && IsQuote(s[j]) then LazyBodyEnd(s, j + 1, [s[j]]) else None;
      if quoted.Some? then Some(s[j + 1..quoted.value])
      else
        match LazyBodyEnd(s, j, "")
        case Some(k) => Some(s[j..k])
        case None => None
  }

  /** Every match of the regular expression makes the matcher succeed at that position. */
  lemma MatchAtComplete(s: string, i: nat, q: string, k: nat)
    requires RegexMatchAt(s, i, q, k)
    ensures MatchAt(s, i).Some?
  {
    var j := i + |Opening|;
    LazyBodyEndShortest(s, j, "");
    if q == "" {
      assert s[j..k] == s[j + |q|..k];
    } else {
      assert q == [s[j]];
      LazyBodyEndShortest(s, j + 1, q);
    }
  }

  /** What the matcher returns at `i` is group 2 of a match at `i`, with the shortest body
      for its quote, and with the quote preferred whenever a quoted match exists. */
  lemma MatchAtSound(s: string, i: nat) returns (q: string, k: nat)
    requires i <= |s| && MatchAt(s, i).Some?
    ensures RegexMatchAt(s, i, q, k)
    ensures MatchAt(s, i).value == s[i + |Opening| + |q|..k]
    ensures forall k' :: i + |Opening| + |q| <= k' < k ==> !ClosesAt(s, k', q)
    ensures q == "" ==> forall q', k' :: q' != "" ==> !RegexMatchAt(s, i, q', k')
  {
    var j := i + |Opening|;
    if j < |s| && IsQuote(s[j]) && LazyBodyEnd(s, j + 1, [s[j]]).Some? {
      LazyBodyEndShortest(s, j + 1, [s[j]]);
      q, k := [s[j]], LazyBodyEnd(s, j + 1, [s[j]]).value;
    } else {
      LazyBodyEndShortest(s, j, "");
      q, k := "", LazyBodyEnd(s, j, "").value;
      NoQuotedMatch(s, i);
    }
  }

  /** When the quoted attempt at `i` finds no end, no quoted match exists at `i`. */
  lemma NoQuotedMatch(s: string, i: nat)
    requires i + |Opening| <= |s|
    requires var j := i + |Opening|;
             j < |s| && IsQuote(s[j]) ==> LazyBodyEnd(s, j + 1, [s[j]]).None?
    ensures forall q, k :: q != "" ==> !RegexMatchAt(s, i, q, k)
  {
    forall q: string, k: nat | q != "" && RegexMatchAt(s, i, q, k)
      ensures false
    {
      QuotedMatchFound(s, i, q, k);
    }
  }

  /** A quoted match at `i` makes the quoted attempt there find an end. */
  lemma QuotedMatchFound(s: string, i: nat, q: string, k: nat)
    requires q != "" && RegexMatchAt(s, i, q, k)
    ensures var j := i + |Opening|;
            j < |s| && IsQuote(s[j]) && LazyBodyEnd(s, j + 1, [s[j]]).Some?
  {
    var j := i + |Opening|;
    assert j < |s| && q == [s[j]];
    assert NoLineTerminator(s[j + 1..k]);
    LazyBodyEndShortest(s, j + 1, q);
  }

  /** The leftmost match at or after position `i` (`String.prototype.match` without `g`). */
  function FirstMatchFrom(s: string, i: nat): (r: Option<string>)
    requires i <= |s|
    ensures r.Some? ==> |r.value| + |Opening| + 1 <= |s| - i
    decreases |s| - i
  {
    var m := MatchAt(s, i);
    if m.Some? then m
    else if i == |s| then None
    else FirstMatchFrom(s, i + 1)
  }

  /** `FirstMatchFrom` finds a match exactly when there is one at or after `i`, and then
      it is the leftmost. */
  lemma {:induction false} FirstMatchFromLeftmost(s: string, i: nat)
    requires i <= |s|
    ensures FirstMatchFrom(s, i).Some? <==> exists p :: i <= p <= |s| && MatchAt(s, p).Some?
    ensures FirstMatchFrom(s, i).Some? ==>
              exists p :: i <= p <= |s| && FirstMatchFrom(s, i) == MatchAt(s, p)
                          && forall p' :: i <= p' < p ==> MatchAt(s, p').None?
    decreases |s| - i
  {
    if MatchAt(s, i).None? && i < |s| {
      FirstMatchFromLeftmost(s, i + 1);
      if FirstMatchFrom(s, i + 1).Some? {
        var p :| i + 1 <= p <= |s| && FirstMatchFrom(s, i + 1) == MatchAt(s, p)
                 && forall p' :: i + 1 <= p' < p ==> MatchAt(s, p').None?;
        assert forall p' :: i <= p' < p ==> MatchAt(s, p').None?;
      }
    }
  }

  /** A protocol-relative URL (`//host/...`) made absolute with `https:`. */
  function NormalizeProtocol(url: string): (r: string)
    ensures !StartsWith(r, "//")
    ensures StartsWith(url, "//") ==> r == "https:" + url
    ensures !StartsWith(url, "//") ==> r == url
  {
    if StartsWith(url, "//") then
      assert ("https:" + url)[0] == 'h';
      "https:" + url
    else url
  }

  /** `extractUrlFromCss(cssUrlString)`. */
  function ExtractUrlFromCss(css: Option<string>): (r: Option<string>)
    ensures !Present(css) ==> r == None
    ensures r.Some? ==> !StartsWith(r.value, "//")
  {
    if !Present(css) then None
    else
      match FirstMatchFrom(css.value, 0)
      case None => None
      case Some(url) => Some(NormalizeProtocol(url))
  }

  /** No match anywhere in the value gives `null`. */
  lemma ExtractWithoutMatch(css: string)
    requires forall i, q, k :: !RegexMatchAt(css, i, q, k)
    ensures ExtractUrlFromCss(Some(css)) == None
  {
    FirstMatchFromLeftmost(css, 0);
    if FirstMatchFrom(css, 0).Some? {
      var p :| 0 <= p <= |css| && MatchAt(css, p).Some?;
      var q, k := MatchAtSound(css, p);
    }
  }

  /** A match gives the URL of the leftmost one, protocol-normalised. */
  lemma ExtractFromMatch(css: string, i: nat, q: string, k: nat)
    requires RegexMatchAt(css, i, q, k)
    ensures ExtractUrlFromCss(Some(css)).Some?
    ensures exists p :: && 0 <= p <= i && MatchAt(css, p).Some?
                        && ExtractUrlFromCss(Some(css)) == Some(NormalizeProtocol(MatchAt(css, p).value))
                        && forall p', q', k' :: 0 <= p' < p ==> !RegexMatchAt(css, p', q', k')
  {
    MatchAtComplete(css, i, q, k);
    FirstMatchFromLeftmost(css, 0);
    var p :| && 0 <= p <= |css| && FirstMatchFrom(css, 0) == MatchAt(css, p)
             && forall p' :: 0 <= p' < p ==> MatchAt(css, p').None?;
    NoMatchBefore(css, p);
  }

  /** Where the matcher fails, the regular expression has no match. */
  lemma NoMatchBefore(css: string, p: nat)
    requires p <= |css|
    requires forall p' :: 0 <= p' < p ==> MatchAt(css, p').None?
    ensures forall p', q', k' :: 0 <= p' < p ==> !RegexMatchAt(css, p', q', k')
  {
    forall p': nat, q': string, k': nat | p' < p
      ensures !RegexMatchAt(css, p', q', k')
    {
      if RegexMatchAt(css, p', q', k') {
        MatchAtComplete(css, p', q', k');
      }
    }
  }

  /** The value written back for a fetched image, `url("<dataUrl>")` (content.js:233). */
  function CssUrlValue(dataUrl: string): (r: string)
    ensures |r| == |dataUrl| + 7
    ensures r[..5] == "url(\"" && r[5..|r| - 2] == dataUrl && r[|r| - 2..] == "\")"
  {
    "url(\"" + dataUrl + "\")"
  }

  /** Reading back a written value recovers the URL (normalised when it is
      protocol-relative), provided it holds no `"` and no line terminator. */
  lemma {:induction false} ExtractCssUrlValue(url: string)
    requires forall i :: 0 <= i < |url| ==> url[i] != '"' && !IsLineTerminator(url[i])
    ensures ExtractUrlFromCss(Some(CssUrlValue(url))) == Some(NormalizeProtocol(url))
  {
    var s := CssUrlValue(url);
    var e := 5 + |url|;
    assert Opening <= s;
    assert s[4] == '"' && IsQuote(s[4]);
    assert s[5..e] == url;
    assert ClosesAt(s, e, "\"") by { assert s[e..] == "\")"; }
    var r := LazyBodyEnd(s, 5, "\"");
    LazyBodyEndShortest(s, 5, "\"");
    assert r.Some?;
    forall m | 5 <= m < e
      ensures !ClosesAt(s, m, "\"")
    {
      assert s[m] == url[m - 5];
    }
    assert r.value == e;
    assert MatchAt(s, 0) == Some(url);
  }

  /** The data URLs the relay returns are written back and read as themselves. */
  lemma ExtractDataUrl(dataUrl: string)
    requires forall i :: 0 <= i < |dataUrl| ==> dataUrl[i] != '"' && !IsLineTerminator(dataUrl[i])
    requires !StartsWith(dataUrl, "//")
    ensures ExtractUrlFromCss(Some(CssUrlValue(dataUrl))) == Some(dataUrl)
  {
    ExtractCssUrlValue(dataUrl);
  }
}

=== FILE: dom.dfy ===
/** The part of the page the VIP pipeline detaches and re-attaches (content.js:240-244,
    325-331): each element's child nodes, text nodes included, in document order.
    Removing a node, and putting it back before its recorded next sibling (or last when
    there was none), are functions on that map. */
module Dom {
  import opened Wrappers

  type NodeId = nat

  /** Each element's child nodes in document order; an element without an entry has none. */
  type Children = map<NodeId, seq<NodeId>>

  predicate Distinct(s: seq<NodeId>) {
    forall i, j :: 0 <= i < j < |s| ==> s[i] != s[j]
  }

  /** A node has at most one parent and occurs once among its siblings. */
  ghost predicate TreeShaped(c: Children) {
    && (forall p :: p in c ==> Distinct(c[p]))
    && (forall p, q, x :: p in c && q in c && x in c[p] && x in c[q] ==> p == q)
  }

  /** The node is some element's child (`node.parentNode` is not null). */
  ghost predicate Attached(c: Children, x: NodeId) {
    exists p :: p in c && x in c[p]
  }

  function Elems(s: seq<NodeId>): set<NodeId> {
    set x | x in s
  }

  /** The child list of `p`, empty when `p` has no entry. */
  function Kids(c: Children, p: NodeId): seq<NodeId> {
    if p in c then c[p] else []
  }

  /** A child list with the nodes of `r` taken out, the others kept in order. */
  function Without(s: seq<NodeId>, r: set<NodeId>): seq<NodeId>
  {
    if s == [] then [] else (if s[0] in r then [] else [s[0]]) + Without(s[1..], r)
  }

  /** Exactly the nodes of `s` outside `r` are left. */
  lemma {:induction false} WithoutMember(s: seq<NodeId>, r: set<NodeId>, x: NodeId)
    ensures x in Without(s, r) <==> x in s && x !in r
  {
    if s != [] {
      WithoutMember(s[1..], r, x);
      assert x in s <==> x == s[0] || x in s[1..];
    }
  }

  /** The page with every node of `r` detached. */
  function WithoutAll(c: Children, r: set<NodeId>): (d: Children)
    ensures d.Keys == c.Keys
    ensures forall p :: p in c ==> d[p] == Without(c[p], r)
  {
    map p | p in c :: Without(c[p], r)
  }

  /** The position of `x` among its siblings. */
  function IndexOf(s: seq<NodeId>, x: NodeId): (i: nat)
    requires x in s
    ensures i < |s| && s[i] == x && x !in s[..i]
  {
    if s[0] == x then 0
    else
      var i := 1 + IndexOf(s[1..], x);
      assert s[..i] == [s[0]] + s[1..][..i - 1];
      i
  }

  /** The siblings that follow `x`; `x.nextSibling` is the first of them. */
  function After(s: seq<NodeId>, x: NodeId): seq<NodeId>
    requires x in s
  {
    s[IndexOf(s, x) + 1..]
  }

  function Head(s: seq<NodeId>): (h: Option<NodeId>)
    ensures h.Some? <==> s != []
    ensures h.Some? ==> h.value == s[0]
  {
    if s == [] then None else Some(s[0])
  }

  /** `parent.removeChild(x)` on the parent's child list. */
  function RemoveChild(s: seq<NodeId>, x: NodeId): (t: seq<NodeId>)
    requires x in s
    ensures |t| == |s| - 1
    ensures exists i :: 0 <= i < |s| && s[i] == x && t == s[..i] + s[i + 1..]
    ensures multiset(t) == multiset(s) - multiset{x}
  {
    var i := IndexOf(s, x);
    assert s == s[..i] + [x] + s[i + 1..];
    s[..i] + s[i + 1..]
  }

  /** What the removal pass keeps of one image: `{node, parent, nextSibling}`. */
  datatype Removal = Removal(node: NodeId, parent: NodeId, nextSibling: Option<NodeId>)

  /** `parent.insertBefore(node, next)` on the parent's child list, `appendChild` when
      `next` is null; `None` when `insertBefore` throws because `next` is not a child.
      The node is detached when this runs, so there is nothing to unlink first. */
  function InsertBefore(kids: seq<NodeId>, node: NodeId, next: Option<NodeId>): (t: Option<seq<NodeId>>)
    ensures t.None? <==> next.Some? && next.value !in kids
    ensures t.Some? ==> multiset(t.value) == multiset(kids) + multiset{node}
    ensures (t.Some? && next.Some?) ==> exists i :: 0 <= i < |kids| && kids[i] == next.value
                                         && t.value == kids[..i] + [node] + kids[i..]
    ensures next.None? ==> t == Some(kids + [node])
  {
    match next
    case None => Some(kids + [node])
    case Some(ref) =>
      if ref in kids then
        var i := IndexOf(kids, ref);
        assert kids == kids[..i] + kids[i..];
        Some(kids[..i] + [node] + kids[i..])
      else None
  }

  /** One step of the restoration `forEach` (content.js:326-330) on the page. */
  function Reinsertion(c: Children, r: Removal): (d: Option<Children>)
    ensures d.None? <==> r.nextSibling.Some? && r.nextSibling.value !in Kids(c, r.parent)
    ensures d.Some? ==> d.value.Keys == c.Keys + {r.parent}
    ensures d.Some? ==> forall q :: q in c && q != r.parent ==> d.value[q] == c[q]
    ensures d.Some? ==> Some(d.value[r.parent]) == InsertBefore(Kids(c, r.parent), r.node, r.nextSibling)
  {
    match InsertBefore(Kids(c, r.parent), r.node, r.nextSibling)
    case None => None
    case Some(kids) => Some(c[r.parent := kids])
  }

  /** The restoration loop as written: records re-inserted in the order they were removed,
      stopping at the first `insertBefore` that throws. Gives the page reached and whether
      every record went back. */
  /** No child of any parent in `c` is missing from `d`. */
  ghost predicate KeepsChildren(c: Children, d: Children) {
    forall q :: multiset(Kids(c, q)) <= multiset(Kids(d, q))
  }

  /** Every recorded image is a child of its recorded parent in `d`. */
  ghost predicate AllPutBack(removed: seq<Removal>, d: Children) {
    forall x :: x in removed ==> x.node in Kids(d, x.parent)
  }

  /** Some record has a next sibling: only such a record's `insertBefore` can throw. */
  ghost predicate SomeHasNextSibling(removed: seq<Removal>) {
    exists x :: x in removed && x.nextSibling.Some?
  }

  function Reinsert(c: Children, removed: seq<Removal>): (r: (Children, bool))
    ensures KeepsChildren(c, r.0)
    ensures r.1 ==> AllPutBack(removed, r.0)
    ensures !r.1 ==> SomeHasNextSibling(removed)
    decreases |removed|
  {
    if removed == [] then (c, true)
    else
      match Reinsertion(c, removed[0])
      case None => (c, false)
      case Some(d) =>
        var r := Reinsert(d, removed[1..]);
        RunExtends(c, removed[0], removed[1..], removed, r);
        r
  }

  /** Restoration that undoes the removals last one first. */
  function ReinsertReverse(c: Children, removed: seq<Removal>): (r: (Children, bool))
    ensures KeepsChildren(c, r.0)
    ensures r.1 ==> AllPutBack(removed, r.0)
    ensures !r.1 ==> SomeHasNextSibling(removed)
    decreases |removed|
  {
    if removed == [] then (c, true)
    else
      var last := removed[|removed| - 1];
      match Reinsertion(c, last)
      case None => (c, false)
      case Some(d) =>
        var r := ReinsertReverse(d, removed[..|removed| - 1]);
        RunExtends(c, last, removed[..|removed| - 1], removed, r);
        r
  }

  /** A run of re-insertions that starts with `rec` and goes on with `rest`, which together
      are the records of `removed`: what the rest of the run keeps and puts back, the whole
      run keeps and puts back, and a rest that failed on a record with a next sibling makes
      the whole run such a failure. */
  lemma RunExtends(c: Children, rec: Removal, rest: seq<Removal>, removed: seq<Removal>, r: (Children, bool))
    requires Reinsertion(c, rec).Some?
    requires rec in removed && forall x :: x in rest ==> x in removed
    requires forall x :: x in removed ==> x == rec || x in rest
    requires KeepsChildren(Reinsertion(c, rec).value, r.0)
    requires r.1 ==> AllPutBack(rest, r.0)
    requires !r.1 ==> SomeHasNextSibling(rest)
    ensures KeepsChildren(c, r.0)
    ensures r.1 ==> AllPutBack(removed, r.0)
    ensures !r.1 ==> SomeHasNextSibling(removed)
  {
    var d := Reinsertion(c, rec).value;
    assert multiset(Kids(d, rec.parent)) == multiset(Kids(c, rec.parent)) + multiset{rec.node};
    forall q
      ensures multiset(Kids(c, q)) <= multiset(Kids(d, q))
    {
    }
    assert rec.node in multiset(Kids(r.0, rec.parent));
  }

  /** `Reinsert` on the records from `i` on: the first of them, then the rest. */
  lemma ReinsertNext(c: Children, removed: seq<Removal>, i: nat)
    requires i < |removed|
    ensures var item := removed[i];
            var kids := InsertBefore(Kids(c, item.parent), item.node, item.nextSibling);
            Reinsert(c, removed[i..])
            == if kids.None? then (c, false) else Reinsert(c[item.parent := kids.value], removed[i + 1..])
  {
    assert removed[i..][0] == removed[i] && removed[i..][1..] == removed[i + 1..];
  }

  /** `ReinsertReverse` on the first `i` records: the last of them, then the others. */
  lemma ReinsertReverseNext(c: Children, removed: seq<Removal>, i: nat)
    requires 0 < i <= |removed|
    ensures var item := removed[i - 1];
            var kids := InsertBefore(Kids(c, item.parent), item.node, item.nextSibling);
            ReinsertReverse(c, removed[..i])
            == if kids.None? then (c, false) else ReinsertReverse(c[item.parent := kids.value], removed[..i - 1])
  {
    assert removed[..i][i - 1] == removed[i - 1] && removed[..i][..i - 1] == removed[..i - 1];
  }

  /** The `finally` block's re-insertion as written (content.js:325-331): the records
      in the order of removal, leaving the block when `insertBefore` throws. */
  method ReinsertInOrder(c0: Children, removed: seq<Removal>) returns (c: Children, ok: bool)
    ensures (c, ok) == Reinsert(c0, removed)
  {
    ok := true;
    c := c0;
    var i := 0;
    assert removed[i..] == removed;
    while i < |removed|
      invariant 0 <= i <= |removed|
      invariant Reinsert(c, removed[i..]) == Reinsert(c0, removed)
    {
      var item := removed[i];
      var inserted := InsertBefore(Kids(c, item.parent), item.node, item.nextSibling);
      ReinsertNext(c, removed, i);
      if inserted.None? {
        ok := false;
        break;
      }
      c := c[item.parent := inserted.value];
      i := i + 1;
    }
  }

  /** Re-insertion last record first, which restores the page whatever images were
      adjacent; the VIP pipeline uses it. */
  method ReinsertLastFirst(c0: Children, removed: seq<Removal>) returns (c: Children, ok: bool)
    ensures (c, ok) == ReinsertReverse(c0, removed)
  {
    ok := true;
    c := c0;
    var i := |removed|;
    ghost var goal := ReinsertReverse(c0, removed);
    assert removed[..i] == removed;
    while i > 0
      invariant 0 <= i <= |removed|
      invariant ReinsertReverse(c, removed[..i]) == goal
    {
      var item := removed[i - 1];
      var inserted := InsertBefore(Kids(c, item.parent), item.node, item.nextSibling);
      ReinsertReverseNext(c, removed, i);
      if inserted.None? {
        ok := false;
        break;
      }
      c := c[item.parent := inserted.value];
      i := i - 1;
    }
  }

  /** The record the removal pass keeps for the `k`-th image when it detaches `imgs` in
      order from page `c`: the image, its parent, and the sibling that follows it at that
      moment, which is the first of its original following siblings not removed before it. */
  ghost predicate RecordsRemoval(c: Children, imgs: seq<NodeId>, k: nat, r: Removal)
    requires k < |imgs|
  {
    && r.node == imgs[k]
    && r.parent in c
    && imgs[k] in c[r.parent]
    && r.nextSibling == Head(Without(After(c[r.parent], imgs[k]), Elems(imgs[..k])))
  }

  ghost predicate RecordsRemovals(c: Children, imgs: seq<NodeId>, removed: seq<Removal>) {
    && |removed| == |imgs|
    && forall k :: 0 <= k < |imgs| ==> RecordsRemoval(c, imgs, k, removed[k])
  }

  /** In the original page, no removed image is immediately followed by another removed
      image. Then no recorded next sibling is a removed node. */
  ghost predicate NoRemovedFollowsRemoved(c: Children, imgs: seq<NodeId>) {
    forall p, i :: p in c && 0 <= i < |c[p]| - 1 && c[p][i] in imgs ==> c[p][i + 1] !in imgs
  }

  lemma {:induction false} WithoutConcat(a: seq<NodeId>, b: seq<NodeId>, r: set<NodeId>)
    ensures Without(a + b, r) == Without(a, r) + Without(b, r)
  {
    if a == [] {
      assert a + b == b;
    } else {
      assert (a + b)[0] == a[0];
      assert (a + b)[1..] == a[1..] + b;
      WithoutConcat(a[1..], b, r);
    }
  }

  /** Only the members of `r` that occur in `s` matter. */
  lemma {:induction false} WithoutSameOn(s: seq<NodeId>, r: set<NodeId>, r': set<NodeId>)
    requires forall x :: x in s ==> (x in r <==> x in r')
    ensures Without(s, r) == Without(s, r')
  {
    if s != [] {
      WithoutSameOn(s[1..], r, r');
    }
  }

  lemma {:induction false} WithoutNothing(s: seq<NodeId>)
    ensures Without(s, {}) == s
  {
    if s != [] {
      WithoutNothing(s[1..]);
    }
  }

  lemma WithoutAllNothing(c: Children)
    ensures WithoutAll(c, {}) == c
  {
    forall p | p in c
      ensures WithoutAll(c, {})[p] == c[p]
    {
      WithoutNothing(c[p]);
    }
  }

  /** `x` sits at position `|a|` of `a + [x] + b` when `a` does not hold it. */
  lemma IndexOfSplit(a: seq<NodeId>, x: NodeId, b: seq<NodeId>)
    requires x !in a
    ensures IndexOf(a + [x] + b, x) == |a|
  {
    var s := a + [x] + b;
    assert s[|a|] == x;
    assert forall j :: 0 <= j < |a| ==> s[j] == a[j];
    assert forall j :: |a| < j <= |s| ==> s[..j][|a|] == x;
  }

  /** A child list around one of its nodes: what comes before `x`, `x`, what comes
      after, neither side holding `x`. */
  lemma SplitAt(s: seq<NodeId>, x: NodeId)
    requires Distinct(s) && x in s
    ensures s == s[..IndexOf(s, x)] + [x] + After(s, x)
    ensures x !in s[..IndexOf(s, x)] && x !in After(s, x)
  {
    var i := IndexOf(s, x);
    assert s == s[..i] + [x] + s[i + 1..];
    forall k | 0 <= k < |s| - i - 1
      ensures After(s, x)[k] != x
    {
      assert After(s, x)[k] == s[i + 1 + k];
    }
  }

  /** No node before `x` comes again after it. */
  lemma AfterDisjoint(s: seq<NodeId>, x: NodeId, y: NodeId)
    requires Distinct(s) && x in s && y in After(s, x)
    ensures y !in s[..IndexOf(s, x)]
  {
    var i := IndexOf(s, x);
    var m :| 0 <= m < |After(s, x)| && After(s, x)[m] == y;
    assert s[i + 1 + m] == y;
    forall k | 0 <= k < i
      ensures s[..i][k] != y
    {
      assert s[..i][k] == s[k];
    }
  }

  lemma WithoutAround(a: seq<NodeId>, x: NodeId, b: seq<NodeId>, r: set<NodeId>)
    ensures Without(a + [x] + b, r) == Without(a, r) + (if x in r then [] else [x]) + Without(b, r)
  {
    WithoutConcat(a + [x], b, r);
    WithoutConcat(a, [x], r);
    assert [x][1..] == [];
  }

  /** The recorded next sibling, when the original one is not removed, is that one. */
  lemma HeadWithout(b: seq<NodeId>, r: set<NodeId>)
    requires b == [] || b[0] !in r
    ensures Head(Without(b, r)) == Head(b)
  {
  }

  /** One step of the removal pass on one child list from which `r` is already gone:
      `x` is still there, its next sibling is the first of its original following
      siblings not in `r`, and removing it leaves the list without `r + {x}`. */
  lemma RemovalStepList(s: seq<NodeId>, r: set<NodeId>, x: NodeId)
    requires Distinct(s) && x in s && x !in r
    ensures x in Without(s, r)
    ensures After(Without(s, r), x) == Without(After(s, x), r)
    ensures RemoveChild(Without(s, r), x) == Without(s, r + {x})
  {
    var a, b := s[..IndexOf(s, x)], After(s, x);
    var wa, wb := Without(a, r), Without(b, r);
    assert Without(s, r) == wa + [x] + wb && Without(s, r + {x}) == wa + wb by {
      SplitAt(s, x);
      WithoutAround(a, x, b, r);
      WithoutAround(a, x, b, r + {x});
      WithoutSameOn(a, r, r + {x});
      WithoutSameOn(b, r, r + {x});
    }
    assert x !in wa by {
      SplitAt(s, x);
      WithoutMember(a, r, x);
    }
    TakeOut(wa, x, wb);
  }

  /** In `wa + [x] + wb` with `x` not in `wa`, `x` is followed by `wb`, and removing it
      leaves `wa + wb`. */
  lemma TakeOut(wa: seq<NodeId>, x: NodeId, wb: seq<NodeId>)
    requires x !in wa
    ensures x in wa + [x] + wb
    ensures After(wa + [x] + wb, x) == wb
    ensures RemoveChild(wa + [x] + wb, x) == wa + wb
  {
    var t := wa + [x] + wb;
    IndexOfSplit(wa, x, wb);
    assert t[..|wa|] == wa && t[|wa| + 1..] == wb;
  }

  /** The same step on the page: `x` is a child of `p` on the page with `r` detached,
      and removing it gives the page with `r + {x}` detached. */
  lemma RemovalStep(c: Children, r: set<NodeId>, x: NodeId, p: NodeId)
    requires TreeShaped(c) && p in c && x in c[p] && x !in r
    ensures x in WithoutAll(c, r)[p]
    ensures Head(After(WithoutAll(c, r)[p], x)) == Head(Without(After(c[p], x), r))
    ensures WithoutAll(c, r)[p := RemoveChild(WithoutAll(c, r)[p], x)] == WithoutAll(c, r + {x})
  {
    RemovalStepList(c[p], r, x);
    DetachOneMore(c, r, x, p, RemoveChild(WithoutAll(c, r)[p], x));
  }

  /** Replacing `p`'s child list on the page with `r` detached by that list without `x`
      gives the page with `r + {x}` detached. */
  lemma DetachOneMore(c: Children, r: set<NodeId>, x: NodeId, p: NodeId, kept: seq<NodeId>)
    requires TreeShaped(c) && p in c && x in c[p] && x !in r
    requires kept == Without(c[p], r + {x})
    ensures WithoutAll(c, r)[p := kept] == WithoutAll(c, r + {x})
  {
    var d, e := WithoutAll(c, r), WithoutAll(c, r + {x});
    var d' := d[p := kept];
    assert d'.Keys == e.Keys;
    forall q | q in c && q != p
      ensures d'[q] == e[q]
    {
      WithoutSameOn(c[q], r, r + {x});
    }
  }

  /** Inserting before the first node of `wb` (or appending, when `wb` is empty) puts
      `x` between `wa` and `wb`. */
  lemma InsertBeforeFirst(wa: seq<NodeId>, x: NodeId, wb: seq<NodeId>)
    requires wb == [] || wb[0] !in wa
    ensures InsertBefore(wa + wb, x, Head(wb)) == Some(wa + [x] + wb)
  {
    if wb == [] {
      assert wa + wb == wa && wa + [x] + wb == wa + [x];
    } else {
      var y := wb[0];
      var kids := wa + wb;
      assert kids == wa + [y] + wb[1..];
      assert kids[|wa|] == y;
      IndexOfSplit(wa, y, wb[1..]);
      assert kids[..|wa|] == wa && kids[|wa|..] == wb;
    }
  }

  /** One step of restoration on one child list without `r`: putting `x` back before the
      first of its original following siblings not in `r - {x}` (or last, when there is
      none) gives the list without `r - {x}`. */
  lemma ReinsertionStepList(s: seq<NodeId>, r: set<NodeId>, x: NodeId)
    requires Distinct(s) && x in s && x in r
    ensures InsertBefore(Without(s, r), x, Head(Without(After(s, x), r - {x}))) == Some(Without(s, r - {x}))
  {
    var r' := r - {x};
    var wa, wb := Without(s[..IndexOf(s, x)], r'), Without(After(s, x), r');
    WithoutSplit(s, r, x);
    NextNotBefore(s, x, r');
    InsertBeforeFirst(wa, x, wb);
  }

  /** Around `x`, a list without `r` and without `r - {x}` differ only in `x`. */
  lemma WithoutSplit(s: seq<NodeId>, r: set<NodeId>, x: NodeId)
    requires Distinct(s) && x in s && x in r
    ensures var a, b := s[..IndexOf(s, x)], After(s, x);
            && Without(s, r - {x}) == Without(a, r - {x}) + [x] + Without(b, r - {x})
            && Without(s, r) == Without(a, r - {x}) + Without(b, r - {x})
  {
    SplitAt(s, x);
    WithoutAroundOne(s[..IndexOf(s, x)], x, After(s, x), r);
  }

  /** `WithoutSplit` on a list given as its two sides around `x`. */
  lemma WithoutAroundOne(a: seq<NodeId>, x: NodeId, b: seq<NodeId>, r: set<NodeId>)
    requires x !in a && x !in b && x in r
    ensures Without(a + [x] + b, r - {x}) == Without(a, r - {x}) + [x] + Without(b, r - {x})
    ensures Without(a + [x] + b, r) == Without(a, r - {x}) + Without(b, r - {x})
  {
    var r' := r - {x};
    WithoutAround(a, x, b, r');
    WithoutAround(a, x, b, r);
    WithoutSameOn(a, r, r');
    WithoutSameOn(b, r, r');
  }

  /** The first node after `x` that is kept does not occur among the kept nodes before it. */
  lemma NextNotBefore(s: seq<NodeId>, x: NodeId, r: set<NodeId>)
    requires Distinct(s) && x in s
    ensures var wb := Without(After(s, x), r);
            wb == [] || wb[0] !in Without(s[..IndexOf(s, x)], r)
  {
    var wb := Without(After(s, x), r);
    if wb != [] {
      WithoutMember(After(s, x), r, wb[0]);
      AfterDisjoint(s, x, wb[0]);
      WithoutMember(s[..IndexOf(s, x)], r, wb[0]);
    }
  }

  /** The same step on the page: re-inserting `x` as the removal pass recorded it, on the
      page with `r` detached, gives the page with only `r - {x}` detached. */
  lemma ReinsertionStep(c: Children, r: set<NodeId>, x: NodeId, p: NodeId)
    requires TreeShaped(c) && p in c && x in c[p] && x in r
    ensures Reinsertion(WithoutAll(c, r), Removal(x, p, Head(Without(After(c[p], x), r - {x}))))
            == Some(WithoutAll(c, r - {x}))
  {
    var d, e := WithoutAll(c, r), WithoutAll(c, r - {x});
    ReinsertionStepList(c[p], r, x);
    var rec := Removal(x, p, Head(Without(After(c[p], x), r - {x})));
    assert Kids(d, p) == Without(c[p], r);
    var f := Reinsertion(d, rec);
    assert f.Some? && f.value[p] == e[p];
    forall q | q in c
      ensures f.value[q] == e[q]
    {
      if q != p {
        WithoutSameOn(c[q], r, r - {x});
      }
    }
    assert f.value.Keys == e.Keys;
    assert f.value == e;
  }

  lemma ElemsSplit(imgs: seq<NodeId>, k: nat)
    requires Distinct(imgs) && k < |imgs|
    ensures Elems(imgs[k..]) - {imgs[k]} == Elems(imgs[k + 1..])
    ensures Elems(imgs[..k + 1]) - {imgs[k]} == Elems(imgs[..k])
    ensures Elems(imgs[k..]) == Elems(imgs[k + 1..]) + {imgs[k]}
    ensures Elems(imgs[..k + 1]) == Elems(imgs[..k]) + {imgs[k]}
  {
    assert imgs[k..] == [imgs[k]] + imgs[k + 1..];
    assert imgs[..k + 1] == imgs[..k] + [imgs[k]];
    forall j | k + 1 <= j < |imgs|
      ensures imgs[j] != imgs[k]
    {
    }
    forall j | 0 <= j < k
      ensures imgs[..k][j] != imgs[k]
    {
    }
  }

  /** After detaching `imgs[..k]` from page `c0` one by one: the page `c` and the
      records so far. */
  ghost predicate RemovedSoFar(c0: Children, imgs: seq<NodeId>, k: nat, c: Children, removed: seq<Removal>) {
    && k <= |imgs|
    && c == WithoutAll(c0, Elems(imgs[..k]))
    && |removed| == k
    && forall j :: 0 <= j < k ==> RecordsRemoval(c0, imgs, j, removed[j])
  }

  /** Nothing is detached at first. */
  lemma RemovedNothing(c0: Children, imgs: seq<NodeId>)
    ensures RemovedSoFar(c0, imgs, 0, c0, [])
  {
    assert Elems(imgs[..0]) == {};
    WithoutAllNothing(c0);
  }

  /** The next image is still attached, under the parent it had in the original page. */
  lemma NextStillAttached(c0: Children, imgs: seq<NodeId>, k: nat, c: Children, removed: seq<Removal>)
    requires TreeShaped(c0) && Distinct(imgs) && k < |imgs|
    requires forall x :: x in imgs ==> Attached(c0, x)
    requires RemovedSoFar(c0, imgs, k, c, removed)
    ensures exists p :: p in c && imgs[k] in c[p]
    ensures forall p :: p in c && imgs[k] in c[p] ==> p in c0 && imgs[k] in c0[p]
  {
    var x := imgs[k];
    var r := Elems(imgs[..k]);
    assert x !in r by {
      ElemsSplit(imgs, k);
    }
    assert Attached(c0, x);
    var p0 :| p0 in c0 && x in c0[p0];
    RemovalStep(c0, r, x, p0);
    forall p | p in c && x in c[p]
      ensures p in c0 && x in c0[p]
    {
      WithoutMember(c0[p], r, x);
    }
  }

  /** Detaching `imgs[k]` from its parent `p`, and recording `p` and the sibling that
      follows it, extends the detachment by one image. */
  lemma RemovedOneMore(c0: Children, imgs: seq<NodeId>, k: nat, c: Children, removed: seq<Removal>, p: NodeId)
    requires TreeShaped(c0) && Distinct(imgs) && k < |imgs|
    requires RemovedSoFar(c0, imgs, k, c, removed)
    requires p in c && imgs[k] in c[p] && p in c0 && imgs[k] in c0[p]
    ensures RemovedSoFar(c0, imgs, k + 1, c[p := RemoveChild(c[p], imgs[k])],
                         removed + [Removal(imgs[k], p, Head(After(c[p], imgs[k])))])
  {
    var x := imgs[k];
    var r := Elems(imgs[..k]);
    assert x !in r && Elems(imgs[..k + 1]) == r + {x} by {
      ElemsSplit(imgs, k);
    }
    RemovalStep(c0, r, x, p);
    var rec := Removal(x, p, Head(After(c[p], x)));
    assert RecordsRemoval(c0, imgs, k, rec);
    RecordsExtend(c0, imgs, k, removed, rec);
  }

  /** Records for `imgs[..k]` followed by a record for `imgs[k]` are records for
      `imgs[..k + 1]`. */
  lemma RecordsExtend(c0: Children, imgs: seq<NodeId>, k: nat, removed: seq<Removal>, rec: Removal)
    requires k < |imgs| && |removed| == k
    requires forall j :: 0 <= j < k ==> RecordsRemoval(c0, imgs, j, removed[j])
    requires RecordsRemoval(c0, imgs, k, rec)
    ensures forall j :: 0 <= j < k + 1 ==> RecordsRemoval(c0, imgs, j, (removed + [rec])[j])
  {
    forall j | 0 <= j < k + 1
      ensures RecordsRemoval(c0, imgs, j, (removed + [rec])[j])
    {
      if j < k {
        assert (removed + [rec])[j] == removed[j];
      }
    }
  }

  /** Forward restoration from record `k` on: with no removed image directly followed by
      another in the original page, the records from `k` on, re-inserted in order into the
      page with `imgs[k..]` detached, give back the original page. */
  lemma {:induction false} ForwardRestoresFrom(c: Children, imgs: seq<NodeId>, removed: seq<Removal>, k: nat)
    requires TreeShaped(c) && Distinct(imgs) && RecordsRemovals(c, imgs, removed)
    requires NoRemovedFollowsRemoved(c, imgs)
    requires k <= |imgs|
    ensures Reinsert(WithoutAll(c, Elems(imgs[k..])), removed[k..]) == (c, true)
    decreases |imgs| - k
  {
    if k == |imgs| {
      assert Elems(imgs[k..]) == {};
      WithoutAllNothing(c);
    } else {
      var x, rec := imgs[k], removed[k];
      assert RecordsRemoval(c, imgs, k, rec);
      var p := rec.parent;
      var b := After(c[p], x);
      assert b == [] || b[0] !in imgs by {
        var i := IndexOf(c[p], x);
        if b != [] {
          assert b[0] == c[p][i + 1];
        }
      }
      HeadWithout(b, Elems(imgs[..k]));
      HeadWithout(b, Elems(imgs[k + 1..]));
      ElemsSplit(imgs, k);
      ReinsertionStep(c, Elems(imgs[k..]), x, p);
      assert removed[k..][1..] == removed[k + 1..];
      ForwardRestoresFrom(c, imgs, removed, k + 1);
    }
  }

  /** The restoration as written puts the page back exactly, provided no removed image is
      directly followed by another removed image. */
  lemma ForwardRestores(c: Children, imgs: seq<NodeId>, removed: seq<Removal>)
    requires TreeShaped(c) && Distinct(imgs) && RecordsRemovals(c, imgs, removed)
    requires NoRemovedFollowsRemoved(c, imgs)
    ensures Reinsert(WithoutAll(c, Elems(imgs)), removed) == (c, true)
  {
    ForwardRestoresFrom(c, imgs, removed, 0);
    assert imgs[0..] == imgs && removed[0..] == removed;
  }

  /** Undoing the first `k` removals last one first gives back the original page. */
  lemma {:induction false} ReverseRestoresUpTo(c: Children, imgs: seq<NodeId>, removed: seq<Removal>, k: nat)
    requires TreeShaped(c) && Distinct(imgs) && RecordsRemovals(c, imgs, removed)
    requires k <= |imgs|
    ensures ReinsertReverse(WithoutAll(c, Elems(imgs[..k])), removed[..k]) == (c, true)
  {
    if k == 0 {
      assert Elems(imgs[..0]) == {};
      WithoutAllNothing(c);
    } else {
      UndoLastRemoval(c, imgs, removed, k);
      ReverseRestoresUpTo(c, imgs, removed, k - 1);
      ReverseUnfold(WithoutAll(c, Elems(imgs[..k])), removed, k, WithoutAll(c, Elems(imgs[..k - 1])), c);
    }
  }

  /** `ReinsertReverse` on the first `k` records, when the `k`-th goes back and gives `d`
      and the first `k - 1` records take `d` to `e`: the whole run takes `c` to `e`. */
  lemma ReverseUnfold(c: Children, removed: seq<Removal>, k: nat, d: Children, e: Children)
    requires 0 < k <= |removed|
    requires Reinsertion(c, removed[k - 1]) == Some(d)
    requires ReinsertReverse(d, removed[..k - 1]) == (e, true)
    ensures ReinsertReverse(c, removed[..k]) == (e, true)
  {
    var s := removed[..k];
    assert s[|s| - 1] == removed[k - 1] && s[..|s| - 1] == removed[..k - 1];
  }

  /** Re-inserting the `k`-th record into the page with `imgs[..k]` detached gives the
      page with only `imgs[..k - 1]` detached. */
  lemma UndoLastRemoval(c: Children, imgs: seq<NodeId>, removed: seq<Removal>, k: nat)
    requires TreeShaped(c) && Distinct(imgs) && RecordsRemovals(c, imgs, removed)
    requires 0 < k <= |imgs|
    ensures Reinsertion(WithoutAll(c, Elems(imgs[..k])), removed[k - 1])
            == Some(WithoutAll(c, Elems(imgs[..k - 1])))
  {
    var x, rec := imgs[k - 1], removed[k - 1];
    var r, r' := Elems(imgs[..k]), Elems(imgs[..k - 1]);
    assert RecordsRemoval(c, imgs, k - 1, rec);
    assert x in r && r - {x} == r' by {
      ElemsSplit(imgs, k - 1);
    }
    ReinsertionStep(c, r, x, rec.parent);
  }

  /** Restoring last one first puts the page back exactly, with no condition on which
      images were adjacent. */
  lemma ReverseRestores(c: Children, imgs: seq<NodeId>, removed: seq<Removal>)
    requires TreeShaped(c) && Distinct(imgs) && RecordsRemovals(c, imgs, removed)
    ensures ReinsertReverse(WithoutAll(c, Elems(imgs)), removed) == (c, true)
  {
    ReverseRestoresUpTo(c, imgs, removed, |imgs|);
    assert imgs[..|imgs|] == imgs && removed[..|removed|] == removed;
  }

  /** Two adjacent problem images under one parent: the first is recorded with the second
      as its next sibling; once both are detached, the forward restoration's first
      `insertBefore` gets a detached reference node and throws, leaving both out, while
      the reverse order restores the page. */
  lemma ForwardRestoreFailsOnAdjacentImages()
    ensures var c: Children := map[0 := [1, 2]];
            var imgs := [1, 2];
            var removed := [Removal(1, 0, Some(2)), Removal(2, 0, None)];
            && TreeShaped(c) && Distinct(imgs) && RecordsRemovals(c, imgs, removed)
            && !NoRemovedFollowsRemoved(c, imgs)
            && Reinsert(WithoutAll(c, Elems(imgs)), removed) == (map[0 := []], false)
            && ReinsertReverse(WithoutAll(c, Elems(imgs)), removed) == (c, true)
  {
    var c: Children := map[0 := [1, 2]];
    var imgs := [1, 2];
    var removed := [Removal(1, 0, Some(2)), Removal(2, 0, None)];
    assert IndexOf([1, 2], 1) == 0;
    assert IndexOf([1, 2], 2) == 1;
    assert After([1, 2], 1) == [2];
    assert After([1, 2], 2) == [];
    assert Elems(imgs[..0]) == {};
    assert Without([2], {}) == [2];
    assert RecordsRemoval(c, imgs, 0, removed[0]);
    assert RecordsRemoval(c, imgs, 1, removed[1]);
    assert Elems(imgs) == {1, 2};
    assert Without([1, 2], {1, 2}) == [] by {
      assert [1, 2][1..] == [2];
    }
    assert WithoutAll(c, Elems(imgs)) == map[0 := []];
    assert c[0][0] in imgs && c[0][1] in imgs;
    ReverseRestores(c, imgs, removed);
  }
}

=== FILE: ocr.dfy ===
/** Picking the recognised text out of the OCR endpoint's reply (content.js:275-284):
    `result.choices[0].message.content` is either a string or an array of parts. */
module Ocr {
  import opened Wrappers
  import opened Strings

  /** One element of an array-valued `content`: its `type` and its `text`, if any. */
  datatype Part = Part(kind: string, text: Option<string>)

  /** `result.choices?.[0]?.message?.content`: missing (or falsy), a string, an array of
      parts, or some other value the extension does not read. */
  datatype Content = Absent | Str(s: string) | Parts(parts: seq<Part>) | Other

  const NoTextMessage: string := "OCR returned no text or unexpected structure."

  /** `content.find(part => part.type === 'text')`. */
  function FindTextPart(parts: seq<Part>): (r: Option<Part>)
    ensures r.None? <==> forall i :: 0 <= i < |parts| ==> parts[i].kind != "text"
    ensures r.Some? ==> exists i :: 0 <= i < |parts| && parts[i] == r.value
                                   && (forall j :: 0 <= j < i ==> parts[j].kind != "text")
    ensures r.Some? ==> r.value.kind == "text"
  {
    if parts == [] then None
    else if parts[0].kind == "text" then Some(parts[0])
    else
      var r := FindTextPart(parts[1..]);
      assert forall i :: 1 <= i < |parts| ==> parts[i] == parts[1..][i - 1];
      r
  }

  /** The value `ocrTextContent` holds after lines 275-282: trimmed, and empty when
      nothing usable was found. */
  function RecognisedText(content: Content): (t: string)
    ensures Trim(t) == t
    ensures content.Str? ==> (t != "" <==> exists i :: 0 <= i < |content.s| && !IsWhiteSpace(content.s[i]))
    ensures content.Str? ==> t == Trim(content.s)
    ensures content.Parts? ==> var part := FindTextPart(content.parts);
                               t == if part.Some? && Present(part.value.text) then Trim(part.value.text.value) else ""
    ensures content.Absent? || content.Other? ==> t == ""
  {
    match content
    case Str(s) =>
      TrimIdempotent(s);
      TrimEmptyIff(s);
      Trim(s)
    case Parts(parts) =>
      var part := FindTextPart(parts);
      if part.Some? && Present(part.value.text) then
        TrimIdempotent(part.value.text.value);
        Trim(part.value.text.value)
      else ""
    case _ => ""
  }

  /** The text the pipeline goes on with, or the error it throws (line 284). */
  function SelectText(content: Content): (r: Result<string, string>)
    ensures r.Ok? ==> r.value != "" && Trim(r.value) == r.value
    ensures r.Ok? ==> r.value == RecognisedText(content)
    ensures r.Err? <==> RecognisedText(content) == ""
    ensures r.Err? ==> r.error == NoTextMessage
    ensures content.Absent? || content.Other? || content == Parts([]) ==> r.Err?
    ensures content.Str? ==> (r.Ok? <==> exists i :: 0 <= i < |content.s| && !IsWhiteSpace(content.s[i]))
  {
    var t := RecognisedText(content);
    if t == "" then Err(NoTextMessage) else Ok(t)
  }

  /** A plain string reply and a one-part array reply holding the same text give the
      same result. */
  lemma StringAndSinglePartAgree(t: string)
    ensures SelectText(Str(t)) == SelectText(Parts([Part("text", Some(t))]))
  {
    var part := Part("text", Some(t));
    assert FindTextPart([part]) == Some(part);
    if t == "" {
      assert Trim(t) == "";
    }
  }

  /** Only the first `text` part is read: later parts never matter, even when the
      first one is empty. */
  lemma {:induction false} FirstTextPartDecides(before: seq<Part>, part: Part, after: seq<Part>)
    requires forall i :: 0 <= i < |before| ==> before[i].kind != "text"
    requires part.kind == "text"
    ensures SelectText(Parts(before + [part] + after))
         == (if Present(part.text) then SelectText(Str(part.text.value)) else Err(NoTextMessage))
  {
    FirstTextPartFound(before, part, after);
  }

  lemma {:induction false} FirstTextPartFound(before: seq<Part>, part: Part, after: seq<Part>)
    requires forall i :: 0 <= i < |before| ==> before[i].kind != "text"
    requires part.kind == "text"
    ensures FindTextPart(before + [part] + after) == Some(part)
  {
    if before != [] {
      assert (before + [part] + after)[1..] == before[1..] + [part] + after;
      FirstTextPartFound(before[1..], part, after);
    }
  }

  /** A reply without text, or whose text is all white space, is an error. */
  lemma BlankTextFails(s: string)
    requires forall i :: 0 <= i < |s| ==> IsWhiteSpace(s[i])
    ensures SelectText(Str(s)) == Err(NoTextMessage)
    ensures SelectText(Parts([Part("text", Some(s))])) == Err(NoTextMessage)
  {
    TrimEmptyIff(s);
  }
}

=== FILE: popup.dfy ===
/** The extension's popup (popup.js): the API-key field with its save and show/hide
    buttons, the fetch button that asks the page agent of the active tab for the chapter,
    the copy button, and the listener for the page agent's `updatePopupDisplay`
    broadcast. The popup's elements are the fields of a `Popup` object that the event
    handlers update; `chrome.storage.local` is a map field, and what Chrome, the tab and
    the clipboard answer is given to each handler as the outcome it produces. */
module Popup {
  import opened Wrappers
  import opened Strings
  import Chapter

  /** The `chrome.storage.local` key the API key is kept under. */
  const StorageKey: string := "openrouterApiKey"

  const Password: string := "password"
  const PlainText: string := "text"
  const ShowCaption: string := "Show"
  const HideCaption: string := "Hide"

  const LoadErrorMessage: string := "Error loading API key."
  const KeySetMessage: string := "API Key is set (hidden)."
  const KeyNotSetMessage: string := "API Key not set. Please save your key."
  const SaveErrorMessage: string := "Error saving API key."
  const SavedMessage: string := "API Key saved successfully!"
  const EmptyKeyMessage: string := "API Key cannot be empty."

  const RequestingMessage: string := "Requesting chapter from current tab..."
  const KeyReadErrorMessage: string := "Error fetching API key for operation."
  const NoTabMessage: string := "Cannot access active tab."
  const NotChapterMessage: string := "Not a Faloo chapter page. Please navigate to a chapter."
  const FetchedCopiedMessage: string := "Chapter fetched & copied to clipboard!"
  const FetchedNotCopiedMessage: string := "Chapter fetched, but failed to copy. Use \"Copy Displayed Text\" button."
  const DefaultFetchError: string := "Failed to fetch chapter content."
  const ContentScriptErrorPrefix: string := "Error from content script: "
  const SendErrorSuffix: string := ". Is Faloo page open & script running correctly?"

  const CopiedMessage: string := "Text copied to clipboard!"
  const CopyFailedMessage: string := "Failed to copy text."
  const CannotCopyErrorMessage: string := "Cannot copy an error message."
  const NothingToCopyMessage: string := "Nothing to copy."

  const BroadcastAction: string := "updatePopupDisplay"
  const UnknownError: string := "Unknown error"

  /** The `type` given to `updateApiKeyStatus` and `updatePopupActionStatus`. */
  datatype Level = Success | Error | Info

  /** What a status line shows: its text and its `status-message <type>` class. */
  datatype Status = Status(message: string, level: Level)

  type Storage = map<string, string>

  /** `result.openrouterApiKey`: the stored value, missing when nothing is stored. */
  function StoredKey(storage: Storage): (k: Option<string>)
    ensures k.Some? <==> StorageKey in storage
    ensures k.Some? ==> k.value == storage[StorageKey]
  {
    if StorageKey in storage then Some(storage[StorageKey]) else None
  }

  /** The value the save button stores (popup.js:30-31): the field trimmed, or nothing
      when that is empty. */
  function KeyToSave(input: string): (k: Option<string>)
    ensures k.Some? <==> exists i :: 0 <= i < |input| && !IsWhiteSpace(input[i])
    ensures k.Some? ==> k.value == Trim(input) && Truthy(k.value)
    ensures k.Some? ==> Trim(k.value) == k.value
  {
    TrimEmptyIff(input);
    TrimIdempotent(input);
    var key := Trim(input);
    if Truthy(key) then Some(key) else None
  }

  /** A key stored by the save button is what the next load finds, and it is truthy. */
  lemma SavedKeyLoads(storage: Storage, input: string)
    requires KeyToSave(input).Some?
    ensures Present(StoredKey(storage[StorageKey := KeyToSave(input).value]))
    ensures StoredKey(storage[StorageKey := KeyToSave(input).value]) == Some(Trim(input))
  {
  }

  /** The show/hide button (popup.js:49-57): the new input type and caption. */
  function Toggled(inputType: string): (r: (string, string))
    ensures r.0 == PlainText <==> inputType == Password
    ensures r.0 == Password <==> inputType != Password
    ensures r.1 == HideCaption <==> r.0 == PlainText
    ensures r.1 == ShowCaption <==> r.0 == Password
  {
    if inputType == Password then (PlainText, HideCaption) else (Password, ShowCaption)
  }

  /** Showing then hiding, or hiding then showing, gives back the input type. */
  lemma ToggleTwice(inputType: string)
    requires inputType == Password || inputType == PlainText
    ensures Toggled(Toggled(inputType).0).0 == inputType
  {
  }

  /** The tab the popup asks about: `tabs[0].id` (missing or a number) and its `url`. */
  datatype Tab = Tab(id: Option<int>, url: Option<string>)

  /** What `chrome.tabs.query` gave: an error or no tab list, or the list. */
  datatype TabQuery = QueryFailed | Tabs(tabs: seq<Tab>)

  /** The `if` of popup.js:76: the query failed, found no tab, or the tab's id is falsy
      (missing or `0`). */
  function TabUnusable(q: TabQuery): (unusable: bool)
    ensures !unusable <==> q.Tabs? && |q.tabs| > 0 && q.tabs[0].id.Some? && q.tabs[0].id.value != 0
    ensures q.QueryFailed? || q == Tabs([]) ==> unusable
  {
    q.QueryFailed? || q.tabs == [] || q.tabs[0].id.None? || q.tabs[0].id.value == 0
  }

  /** The tab is a chapter page (popup.js:83): its URL is truthy, contains `b.faloo.com/`
      and ends with `.html`. */
  function IsChapterUrl(url: Option<string>): (chapter: bool)
    ensures chapter <==> && url.Some? && EndsWith(url.value, ".html")
                         && exists i :: 0 <= i <= |url.value| - 17 && "b.faloo.com/" <= url.value[i..]
  {
    if Present(url) && Includes(url.value, "b.faloo.com/") && EndsWith(url.value, ".html") then
      HostBeforeSuffix(url.value);
      true
    else false
  }

  /** In a URL that contains `b.faloo.com/` and ends with `.html`, the host segment ends
      before the suffix begins: no suffix of the one is a prefix of the other. */
  lemma HostBeforeSuffix(u: string)
    requires Includes(u, "b.faloo.com/") && EndsWith(u, ".html")
    ensures exists i :: 0 <= i <= |u| - 17 && "b.faloo.com/" <= u[i..]
  {
    var i :| 0 <= i <= |u| - 12 && "b.faloo.com/" <= u[i..];
    assert u[i + 11] == '/';
  }

  /** How `chrome.tabs.sendMessage` came back: with `chrome.runtime.lastError` set, or
      with the page agent's response, missing when it sent none. */
  datatype TabReply = SendFailed(message: string) | Responded(response: Option<Chapter.Response>)

  /** `response?.error || 'Failed to fetch chapter content.'` for a response that is not
      a success. */
  function ErrorOf(response: Option<Chapter.Response>): (m: string)
    ensures Truthy(m)
    ensures (response.Some? && response.value.Failure? && Truthy(response.value.error)) ==> m == response.value.error
    ensures !(response.Some? && response.value.Failure? && Truthy(response.value.error)) ==> m == DefaultFetchError
  {
    if response.Some? && response.value.Failure? then Or(response.value.error, DefaultFetchError)
    else DefaultFetchError
  }

  /** `response?.title || ''` for a response that is not a success. */
  function TitleOf(response: Option<Chapter.Response>): (t: string)
    ensures response.None? ==> t == ""
    ensures (response.Some? && response.value.Failure?) ==> t == OrElse(response.value.knownTitle, "")
  {
    match response
    case None => ""
    case Some(r) =>
      match r
      case Success(title, _) => title
      case Failure(_, knownTitle) => OrElse(knownTitle, "")
  }

  /** The display after a failed fetch (popup.js:108): `Error: <message>`, then the title
      on a second line; the prefix and the suffix share the one line break, and nothing
      else is in the text. */
  function FetchErrorText(message: string, title: string): (r: string)
    ensures StartsWith(r, "Error: " + message + "\n")
    ensures EndsWith(r, "\nTitle: " + title)
    ensures |r| == 15 + |message| + |title|
  {
    var r := "Error: " + message + "\nTitle: " + title;
    assert r == ("Error: " + message + "\n") + ("Title: " + title);
    assert r == ("Error: " + message) + ("\nTitle: " + title);
    r
  }

  /** The contract of `FetchErrorText` leaves no freedom: any text with its prefix, its
      suffix and its length is that display. */
  lemma FetchErrorTextDetermined(message: string, title: string, r: string)
    requires StartsWith(r, "Error: " + message + "\n")
    requires EndsWith(r, "\nTitle: " + title)
    requires |r| == 15 + |message| + |title|
    ensures r == FetchErrorText(message, title)
  {
    var n := 7 + |message|;
    assert r[..n] == ("Error: " + message + "\n")[..n] == "Error: " + message;
    assert r[n..] == "\nTitle: " + title;
    assert r == r[..n] + r[n..];
  }

  /** The display after a failure reported by the page agent's broadcast (popup.js:162):
      the message, `Unknown error` when it is empty, then the title on a second line. */
  function BroadcastErrorText(error: string, title: Option<string>): (r: string)
    ensures StartsWith(r, ContentScriptErrorPrefix + Or(error, UnknownError) + "\n")
    ensures EndsWith(r, "\nTitle: " + OrElse(title, ""))
    ensures |r| == |ContentScriptErrorPrefix| + |Or(error, UnknownError)| + 8 + |OrElse(title, "")|
  {
    var r := ContentScriptErrorPrefix + Or(error, UnknownError) + "\nTitle: " + OrElse(title, "");
    assert r == (ContentScriptErrorPrefix + Or(error, UnknownError) + "\n") + ("Title: " + OrElse(title, ""));
    assert r == (ContentScriptErrorPrefix + Or(error, UnknownError)) + ("\nTitle: " + OrElse(title, ""));
    r
  }

  /** What the copy button does with the displayed text (popup.js:122, 129). */
  datatype CopyDecision = CopyText | RefuseError | NothingToCopy

  function CopyGuard(text: string): (d: CopyDecision)
    ensures d == CopyText <==> Truthy(text) && !StartsWith(text, "Error:")
    ensures d == RefuseError <==> StartsWith(text, "Error:")
    ensures d == NothingToCopy <==> text == ""
  {
    if Truthy(text) && !StartsWith(text, "Error:") then CopyText
    else if StartsWith(text, "Error:") then RefuseError
    else NothingToCopy
  }

  /** A failed fetch's display is refused by the copy button. */
  lemma FetchErrorNotCopied(message: string, title: string)
    ensures CopyGuard(FetchErrorText(message, title)) == RefuseError
  {
    var r := FetchErrorText(message, title);
    assert r[..6] == "Error:" by {
      assert ("Error: " + message + "\n")[..6] == "Error:";
      assert r[..|"Error: " + message + "\n"|] == "Error: " + message + "\n";
    }
  }

  /** The error displays that come from the page agent, through the broadcast or a failed
      `sendMessage`, start with `Error from content script: `, not with `Error:`, so the
      copy button copies them like chapter text. */
  lemma ContentScriptErrorsCopied(error: string, title: Option<string>, message: string)
    ensures CopyGuard(BroadcastErrorText(error, title)) == CopyText
    ensures CopyGuard(ContentScriptErrorPrefix + message) == CopyText
  {
    var r := BroadcastErrorText(error, title);
    var p := ContentScriptErrorPrefix + Or(error, UnknownError) + "\n";
    assert r[..|p|] == p;
    assert r[5] == ' ' && (ContentScriptErrorPrefix + message)[5] == ' ';
  }

  /** The page agent's `updatePopupDisplay` message: its `action`, then the reply fields. */
  datatype Broadcast = Broadcast(action: string, response: Chapter.Response)

  /** The popup's state: the stored key, the key field's value and type, the show/hide
      caption, the two status lines and the chapter display. */
  class Popup {
    var storage: Storage
    var keyInput: string
    var inputType: string
    var showCaption: string
    var keyStatus: Option<Status>
    var display: string
    var actionStatus: Option<Status>

    /** The key field is masked under the caption `Show`, or shown under `Hide`. */
    predicate Masking()
      reads this
    {
      (inputType == Password && showCaption == ShowCaption) || (inputType == PlainText && showCaption == HideCaption)
    }

    /** The popup as it opens: the key field empty and masked, nothing displayed. */
    constructor(storage0: Storage)
      ensures storage == storage0 && keyInput == "" && display == ""
      ensures inputType == Password && showCaption == ShowCaption
      ensures keyStatus.None? && actionStatus.None?
      ensures Masking()
    {
      storage := storage0;
      keyInput := "";
      inputType := Password;
      showCaption := ShowCaption;
      keyStatus := None;
      display := "";
      actionStatus := None;
    }

    /** Loading the saved key when the popup opens (popup.js:15-26). */
    method Load(readFailed: bool)
      modifies this
      ensures readFailed ==> keyInput == old(keyInput) && keyStatus == Some(Status(LoadErrorMessage, Error))
      ensures (!readFailed && Present(StoredKey(storage)))
                ==> keyInput == StoredKey(storage).value && keyStatus == Some(Status(KeySetMessage, Success))
      ensures (!readFailed && !Present(StoredKey(storage)))
                ==> keyInput == old(keyInput) && keyStatus == Some(Status(KeyNotSetMessage, Error))
      ensures storage == old(storage) && inputType == old(inputType) && showCaption == old(showCaption)
      ensures display == old(display) && actionStatus == old(actionStatus)
    {
      if readFailed {
        keyStatus := Some(Status(LoadErrorMessage, Error));
        return;
      }
      var stored := StoredKey(storage);
      if Present(stored) {
        keyInput := stored.value;
        keyStatus := Some(Status(KeySetMessage, Success));
      } else {
        keyStatus := Some(Status(KeyNotSetMessage, Error));
      }
    }

    /** The save button (popup.js:29-47): the trimmed field is stored unless it is empty;
      once stored, the field is masked again. */
    method SaveKey(writeFailed: bool)
      modifies this
      ensures (KeyToSave(old(keyInput)).None?)
                ==> storage == old(storage) && keyStatus == Some(Status(EmptyKeyMessage, Error))
                    && inputType == old(inputType) && showCaption == old(showCaption)
      ensures (KeyToSave(old(keyInput)).Some? && writeFailed)
                ==> storage == old(storage) && keyStatus == Some(Status(SaveErrorMessage, Error))
                    && inputType == old(inputType) && showCaption == old(showCaption)
      ensures (KeyToSave(old(keyInput)).Some? && !writeFailed)
                ==> storage == old(storage)[StorageKey := Trim(old(keyInput))]
                    && keyStatus == Some(Status(SavedMessage, Success))
                    && (old(inputType) == PlainText ==> inputType == Password && showCaption == ShowCaption)
                    && (old(inputType) != PlainText ==> inputType == old(inputType) && showCaption == old(showCaption))
      ensures old(Masking()) ==> Masking()
      ensures keyInput == old(keyInput) && display == old(display) && actionStatus == old(actionStatus)
    {
      var key := KeyToSave(keyInput);
      if key.Some? {
        if writeFailed {
          keyStatus := Some(Status(SaveErrorMessage, Error));
          return;
        }
        storage := storage[StorageKey := key.value];
        keyStatus := Some(Status(SavedMessage, Success));
        if inputType == PlainText {
          inputType := Password;
          showCaption := ShowCaption;
        }
      } else {
        keyStatus := Some(Status(EmptyKeyMessage, Error));
      }
    }

    /** The show/hide button (popup.js:49-57). */
    method ToggleShow()
      modifies this
      ensures (inputType, showCaption) == Toggled(old(inputType))
      ensures Masking()
      ensures storage == old(storage) && keyInput == old(keyInput) && keyStatus == old(keyStatus)
      ensures display == old(display) && actionStatus == old(actionStatus)
    {
      if inputType == Password {
        inputType := PlainText;
        showCaption := HideCaption;
      } else {
        inputType := Password;
        showCaption := ShowCaption;
      }
    }

    /** The fetch button (popup.js:59-118). `readFailed` says whether reading the key
      failed, `tabs` is what the tab query gave, `reply` how the message to the tab came
      back, and `clipboard` how writing the fetched chapter to the clipboard settled.
      Returns the message sent to the tab, if any, and the text copied, if any. */
    method FetchChapter(readFailed: bool, tabs: TabQuery, reply: TabReply, clipboard: Chapter.ClipboardWrite)
      returns (sent: Option<Chapter.Request>, copied: Option<string>)
      modifies this
      ensures storage == old(storage) && keyInput == old(keyInput) && inputType == old(inputType)
      ensures showCaption == old(showCaption) && keyStatus == old(keyStatus)
      ensures readFailed ==> actionStatus == Some(Status(KeyReadErrorMessage, Error))
      ensures (!readFailed && !Present(StoredKey(storage)))
                ==> actionStatus == Some(Status(KeyNotSetMessage, Error))
      ensures (!readFailed && Present(StoredKey(storage)) && TabUnusable(tabs))
                ==> actionStatus == Some(Status(NoTabMessage, Error))
      ensures (&& !readFailed && Present(StoredKey(storage)) && !TabUnusable(tabs)
               && !IsChapterUrl(tabs.tabs[0].url))
                ==> actionStatus == Some(Status(NotChapterMessage, Error))
      ensures sent.Some? <==> && !readFailed && Present(StoredKey(storage)) && !TabUnusable(tabs)
                              && IsChapterUrl(tabs.tabs[0].url)
      ensures sent.Some? ==> sent.value == Chapter.Request(Chapter.ProcessAction, StoredKey(storage))
      ensures sent.None? ==> display == "" && copied.None?
      ensures (sent.Some? && reply.SendFailed?)
                ==> && display == ContentScriptErrorPrefix + reply.message
                    && actionStatus == Some(Status("Error: " + reply.message + SendErrorSuffix, Error))
                    && copied.None?
      ensures (sent.Some? && reply.Responded? && reply.response.Some? && reply.response.value.Success?)
                ==> && display == Chapter.FormatChapter(reply.response.value.title, reply.response.value.content)
                    && (copied.Some? <==> clipboard.Written?)
                    && (copied.Some? ==> copied.value == display)
                    && actionStatus == Some(if clipboard.Written? then Status(FetchedCopiedMessage, Success)
                                            else Status(FetchedNotCopiedMessage, Error))
      ensures (sent.Some? && reply.Responded? && !(reply.response.Some? && reply.response.value.Success?))
                ==> && display == FetchErrorText(ErrorOf(reply.response), TitleOf(reply.response))
                    && actionStatus == Some(Status("Failed: " + ErrorOf(reply.response), Error))
                    && copied.None?
    {
      sent, copied := None, None;
      actionStatus := Some(Status(RequestingMessage, Info));
      display := "";
      if readFailed {
        actionStatus := Some(Status(KeyReadErrorMessage, Error));
        return;
      }
      var apiKey := StoredKey(storage);
      if !Present(apiKey) {
        actionStatus := Some(Status(KeyNotSetMessage, Error));
        return;
      }
      if TabUnusable(tabs) {
        actionStatus := Some(Status(NoTabMessage, Error));
        return;
      }
      var activeTab := tabs.tabs[0];
      if !IsChapterUrl(activeTab.url) {
        actionStatus := Some(Status(NotChapterMessage, Error));
        return;
      }
      sent := Some(Chapter.Request(Chapter.ProcessAction, apiKey));
      match reply
      case SendFailed(message) =>
        actionStatus := Some(Status("Error: " + message + SendErrorSuffix, Error));
        display := ContentScriptErrorPrefix + message;
      case Responded(response) =>
        if response.Some? && response.value.Success? {
          var fullText := Chapter.FormatChapter(response.value.title, response.value.content);
          display := fullText;
          if clipboard.Written? {
            copied := Some(fullText);
            actionStatus := Some(Status(FetchedCopiedMessage, Success));
          } else {
            actionStatus := Some(Status(FetchedNotCopiedMessage, Error));
          }
        } else {
          var errorMsg := ErrorOf(response);
          display := FetchErrorText(errorMsg, TitleOf(response));
          actionStatus := Some(Status("Failed: " + errorMsg, Error));
        }
    }

    /** The copy button (popup.js:120-135); `clipboard` is how the write settled. Returns
      the text copied, if any. */
    method Copy(clipboard: Chapter.ClipboardWrite) returns (copied: Option<string>)
      modifies this
      ensures copied.Some? <==> CopyGuard(display) == CopyText && clipboard.Written?
      ensures copied.Some? ==> copied.value == display
      ensures (CopyGuard(display) == CopyText)
                ==> actionStatus == Some(if clipboard.Written? then Status(CopiedMessage, Success)
                                         else Status(CopyFailedMessage, Error))
      ensures CopyGuard(display) == RefuseError ==> actionStatus == Some(Status(CannotCopyErrorMessage, Info))
      ensures CopyGuard(display) == NothingToCopy ==> actionStatus == Some(Status(NothingToCopyMessage, Info))
      ensures storage == old(storage) && keyInput == old(keyInput) && inputType == old(inputType)
      ensures showCaption == old(showCaption) && keyStatus == old(keyStatus) && display == old(display)
    {
      copied := None;
      var textToCopy := display;
      if Truthy(textToCopy) && !StartsWith(textToCopy, "Error:") {
        if clipboard.Written? {
          copied := Some(textToCopy);
          actionStatus := Some(Status(CopiedMessage, Success));
        } else {
          actionStatus := Some(Status(CopyFailedMessage, Error));
        }
      } else if StartsWith(textToCopy, "Error:") {
        actionStatus := Some(Status(CannotCopyErrorMessage, Info));
      } else {
        actionStatus := Some(Status(NothingToCopyMessage, Info));
      }
    }

    /** The `updatePopupDisplay` listener (popup.js:154-169): the page agent's result is
      shown in the same format as a fetch started here. */
    method OnBroadcast(message: Broadcast)
      modifies this
      ensures message.action != BroadcastAction ==> display == old(display)
      ensures (message.action == BroadcastAction && message.response.Success?)
                ==> display == Chapter.FormatChapter(message.response.title, message.response.content)
      ensures (message.action == BroadcastAction && message.response.Failure?)
                ==> display == BroadcastErrorText(message.response.error, message.response.knownTitle)
      ensures storage == old(storage) && keyInput == old(keyInput) && inputType == old(inputType)
      ensures showCaption == old(showCaption) && keyStatus == old(keyStatus) && actionStatus == old(actionStatus)
    {
      if message.action == BroadcastAction {
        match message.response
        case Success(title, content) =>
          display := Chapter.FormatChapter(title, content);
        case Failure(error, knownTitle) =>
          display := BroadcastErrorText(error, knownTitle);
      }
    }
  }
}

=== FILE: strings.dfy ===
/** The JavaScript string operations the extension relies on: `trim`, `startsWith`,
    `endsWith`, `includes` and the truthiness of a string. */
module Strings {
  import opened Wrappers

  /** ECMAScript LineTerminator code points; also what `.` in a regular expression refuses. */
  predicate IsLineTerminator(c: char) {
    c == '\n' || c == '\r' || c == '\U{2028}' || c == '\U{2029}'
  }

  /** ECMAScript WhiteSpace or LineTerminator: what `String.prototype.trim` strips. */
  predicate IsWhiteSpace(c: char) {
    || IsLineTerminator(c)
    || c == '\t' || c == '\U{000B}' || c == '\U{000C}' || c == ' '
    || c == '\U{00A0}' || c == '\U{FEFF}' || c == '\U{1680}'
    || ('\U{2000}' <= c <= '\U{200A}')
    || c == '\U{202F}' || c == '\U{205F}' || c == '\U{3000}'
  }

  /** A string is truthy in JavaScript exactly when it is non-empty. */
  predicate Truthy(s: string) {
    s != ""
  }

  /** An optional string (`undefined`, `null` or a string) that is truthy. */
  predicate Present(o: Option<string>) {
    o.Some? && Truthy(o.value)
  }

  /** `a || b` on strings. */
  function Or(a: string, b: string): (r: string)
    ensures Truthy(a) ==> r == a
    ensures !Truthy(a) ==> r == b
  {
    if Truthy(a) then a else b
  }

  /** `o || b` where `o` may be missing. */
  function OrElse(o: Option<string>, b: string): (r: string)
    ensures Present(o) ==> r == o.value
    ensures !Present(o) ==> r == b
  {
    if Present(o) then o.value else b
  }

  predicate StartsWith(s: string, prefix: string) {
    prefix <= s
  }

  predicate EndsWith(s: string, suffix: string) {
    |suffix| <= |s| && s[|s| - |suffix|..] == suffix
  }

  predicate Includes(s: string, part: string) {
    exists i :: 0 <= i <= |s| - |part| && part <= s[i..]
  }

  /** The first position at or after `i` that does not hold white space. */
  function SkipWhiteSpace(s: string, i: nat): (a: nat)
    requires i <= |s|
    ensures i <= a <= |s|
    ensures forall k :: i <= k < a ==> IsWhiteSpace(s[k])
    ensures a == |s| || !IsWhiteSpace(s[a])
    decreases |s| - i
  {
    if i < |s| && IsWhiteSpace(s[i]) then SkipWhiteSpace(s, i + 1) else i
  }

  /** The end of `s[a..e]` once its trailing white space is dropped. */
  function SkipWhiteSpaceBack(s: string, a: nat, e: nat): (b: nat)
    requires a <= e <= |s|
    ensures a <= b <= e
    ensures forall k :: b <= k < e ==> IsWhiteSpace(s[k])
    ensures b == a || !IsWhiteSpace(s[b - 1])
    decreases e
  {
    if a < e && IsWhiteSpace(s[e - 1]) then SkipWhiteSpaceBack(s, a, e - 1) else e
  }

  /** `String.prototype.trim`: the infix of `s` left once the white space in front and
      behind is dropped; it neither starts nor ends with white space. */
  function Trim(s: string): (r: string)
    ensures var a := SkipWhiteSpace(s, 0);
      && a + |r| <= |s| && r == s[a..a + |r|]
      && (forall i :: 0 <= i < a ==> IsWhiteSpace(s[i]))
      && (forall i :: a + |r| <= i < |s| ==> IsWhiteSpace(s[i]))
    ensures r == [] || (!IsWhiteSpace(r[0]) && !IsWhiteSpace(r[|r| - 1]))
  {
    var a := SkipWhiteSpace(s, 0);
    s[a..SkipWhiteSpaceBack(s, a, |s|)]
  }

  /** Trimming twice trims nothing more. */
  lemma TrimIdempotent(s: string)
    ensures Trim(Trim(s)) == Trim(s)
  {
    var r := Trim(s);
    assert SkipWhiteSpace(r, 0) == 0;
    assert SkipWhiteSpaceBack(r, 0, |r|) == |r|;
  }

  /** A string trims to nothing exactly when every character is white space. */
  lemma TrimEmptyIff(s: string)
    ensures Trim(s) == "" <==> forall i :: 0 <= i < |s| ==> IsWhiteSpace(s[i])
  {
    var a := SkipWhiteSpace(s, 0);
    var b := SkipWhiteSpaceBack(s, a, |s|);
    assert |Trim(s)| == b - a;
  }
}

=== FILE: vip.dfy ===
/** `handleVipChapter` (content.js:175-338): the VIP pipeline. Each background image is
    fetched through the background relay and written back inline as a data URL, the
    advertising `<img>` elements are detached, the image area is rasterised and sent to
    the OCR endpoint, and in the `finally` block the original styles are written back and
    the detached images put back. The page is a `Page` object whose fields the pipeline
    updates; the relay, the rasteriser, the OCR endpoint and the clipboard are given as
    the outcomes they produce. */
module Vip {
  import opened Wrappers
  import opened Strings
  import opened Dom
  import CssUrl
  import Ocr
  import Chapter

  const NoApiKeyMessage: string := "API Key not available for VIP chapter. Please save it in the extension popup."
  const NoImageAreaMessage: string := "VIP image container area not found."
  const NoImageDivsMessage: string := "No individual VIP image divs found."
  const LibraryMissingMessage: string := "dom-to-image library not loaded."
  const InvalidImageMessage: string := "domtoimage.toPng failed to produce a valid image."
  const OcrApiErrorPrefix: string := "OCR API Error: "
  const FetchingLabel: string := "Fetching Images..."

  /** `new Error(message)`. */
  function Thrown(message: string): Chapter.Error {
    Chapter.Error("Error", message)
  }

  /** How the key for the on-page button is read (`getApiKeyFromStorage`,
      content.js:52-78): nothing when storage is unavailable, when the read fails or when
      the stored key is missing or empty. */
  function ButtonApiKey(storageAvailable: bool, readFailed: bool, stored: Option<string>): (k: Option<string>)
    ensures k.Some? <==> storageAvailable && !readFailed && Present(stored)
    ensures k.Some? ==> k == stored
  {
    if !storageAvailable || readFailed then None
    else if Present(stored) then stored
    else None
  }

  /** The reply of the background relay to `fetchImageAsBase64`: its `success` and
      `dataUrl` (a missing reply reads as `success: false`), or a rejection. */
  datatype RelayReply = Replied(success: bool, dataUrl: string) | RelayThrew(error: Chapter.Error)

  /** What `domtoimage.toPng` settles to, or the library not being loaded. */
  datatype Raster = Rendered(dataUrl: string) | RenderThrew(error: Chapter.Error) | LibraryMissing

  /** The OCR call: a successful reply's `content`, a non-2xx status with the body's
      `error.message` (missing when absent or when the body is not JSON) and the status
      text, or a rejection of `fetch` or of reading the body. */
  datatype OcrReply =
    | Answered(content: Ocr.Content)
    | HttpFailed(apiMessage: Option<string>, statusText: string)
    | FetchThrew(error: Chapter.Error)

  /** The elements' inline `style.backgroundImage` values; an element without an entry
      has none. */
  type Style = map<NodeId, string>

  /** `element.style.backgroundImage`: `""` when the element has no inline value. */
  function BackgroundImage(style: Style, d: NodeId): string {
    if d in style then style[d] else ""
  }

  /** The state of the pre-fetch loop: the styles, the `originalStyles` map (div to its
      original value), the URLs requested from the relay in order,
      `imagesProcessedCount`, and the error that ended the loop, if any. */
  datatype Prefetch = Prefetch(style: Style, originals: map<NodeId, string>, requested: seq<string>,
                               processed: nat, thrown: Option<Chapter.Error>)

  /** `extractUrlFromCss(div.style.backgroundImage)` is truthy. */
  predicate HasImageUrl(css: string) {
    Present(CssUrl.ExtractUrlFromCss(Some(css)))
  }

  /** One iteration of the pre-fetch loop (content.js:224-237) on image div `d`. */
  function PrefetchStep(acc: Prefetch, d: NodeId, reply: RelayReply): (p: Prefetch)
    ensures p.style.Keys == acc.style.Keys
    ensures acc.originals.Keys <= p.originals.Keys <= acc.originals.Keys + {d}
    ensures HasImageUrl(BackgroundImage(acc.style, d)) ==> d in p.originals
    ensures !HasImageUrl(BackgroundImage(acc.style, d)) ==> p == acc
    ensures var original := BackgroundImage(acc.style, d);
            HasImageUrl(original) ==>
              && p.originals == acc.originals[d := original]
              && p.requested == acc.requested + [CssUrl.ExtractUrlFromCss(Some(original)).value]
    ensures HasImageUrl(BackgroundImage(acc.style, d)) && reply.RelayThrew? ==>
              p.thrown == Some(reply.error) && p.style == acc.style && p.processed == acc.processed
    ensures reply.Replied? ==> p.thrown == acc.thrown
    ensures HasImageUrl(BackgroundImage(acc.style, d)) && reply.Replied? && reply.success && reply.dataUrl != "" ==>
              p.style == acc.style[d := CssUrl.CssUrlValue(reply.dataUrl)] && p.processed == acc.processed + 1
    ensures reply.Replied? && !(reply.success && reply.dataUrl != "") ==>
              p.style == acc.style && p.processed == acc.processed
  {
    var original := BackgroundImage(acc.style, d);
    var url := CssUrl.ExtractUrlFromCss(Some(original));
    if !Present(url) then acc
    else
      var asked := acc.(originals := acc.originals[d := original], requested := acc.requested + [url.value]);
      match reply
      case RelayThrew(e) => asked.(thrown := Some(e))
      case Replied(success, dataUrl) =>
        if success && dataUrl != "" then
          asked.(style := acc.style[d := CssUrl.CssUrlValue(dataUrl)], processed := acc.processed + 1)
        else asked
  }

  /** The body of the pre-fetch loop (content.js:224-237) on image div `d`: read its
      style, and when it names an image, record the original, ask the relay, and write
      the returned data URL back. */
  method VisitImageDiv(acc: Prefetch, d: NodeId, reply: RelayReply) returns (p: Prefetch)
    ensures p == PrefetchStep(acc, d, reply)
  {
    p := acc;
    var original := BackgroundImage(acc.style, d);
    var url := CssUrl.ExtractUrlFromCss(Some(original));
    if url.Some? && url.value != "" {
      p := p.(originals := p.originals[d := original], requested := p.requested + [url.value]);
      match reply
      case RelayThrew(e) =>
        p := p.(thrown := Some(e));
      case Replied(success, dataUrl) =>
        if success && dataUrl != "" {
          p := p.(style := p.style[d := CssUrl.CssUrlValue(dataUrl)], processed := p.processed + 1);
        }
    }
  }

  /** The state before the loop: the page's styles, no entries, no requests. */
  function Start(style0: Style): (p: Prefetch)
    ensures p.style == style0 && p.originals == map[] && p.requested == [] && p.thrown.None?
  {
    Prefetch(style0, map[], [], 0, None)
  }

  /** The pre-fetch loop from div `i` on, `relay[i]` being the relay's answer for
      `divs[i]`; once a request has thrown, the loop is left. */
  function PrefetchFrom(acc: Prefetch, divs: seq<NodeId>, relay: seq<RelayReply>, i: nat): (p: Prefetch)
    requires i <= |divs| == |relay|
    ensures p.style.Keys == acc.style.Keys
    ensures acc.originals.Keys <= p.originals.Keys
    ensures acc.thrown.Some? ==> p == acc
    decreases |divs| - i
  {
    if i == |divs| || acc.thrown.Some? then acc
    else PrefetchFrom(PrefetchStep(acc, divs[i], relay[i]), divs, relay, i + 1)
  }

  /** The whole pre-fetch loop over the image divs (content.js:222-238). */
  function Prefetched(style0: Style, divs: seq<NodeId>, relay: seq<RelayReply>): (p: Prefetch)
    requires |divs| == |relay|
    ensures p.style.Keys == style0.Keys
  {
    PrefetchFrom(Start(style0), divs, relay, 0)
  }

  /** Every `originalStyles` entry holds the style its div had before the loop, and every
      div without an entry still has that style. */
  ghost predicate KeepsOriginals(style0: Style, p: Prefetch) {
    && p.style.Keys == style0.Keys
    && (forall d :: d in p.originals ==> d in style0 && p.originals[d] == style0[d])
    && (forall d :: d in style0 && d !in p.originals ==> p.style[d] == style0[d])
  }

  /** None of the divs from `i` on has an entry yet. */
  ghost predicate Unvisited(divs: seq<NodeId>, i: nat, p: Prefetch) {
    forall j :: i <= j < |divs| ==> divs[j] !in p.originals
  }

  /** A div without an `originalStyles` entry still shows its original background. */
  lemma UnrecordedUnchanged(style0: Style, p: Prefetch, d: NodeId)
    requires KeepsOriginals(style0, p) && d !in p.originals
    ensures BackgroundImage(p.style, d) == BackgroundImage(style0, d)
  {
  }

  /** One step on a div not yet recorded keeps the originals, and leaves later distinct
      divs unrecorded. */
  lemma StepKeepsOriginals(style0: Style, acc: Prefetch, divs: seq<NodeId>, i: nat, reply: RelayReply)
    requires i < |divs| && Distinct(divs)
    requires KeepsOriginals(style0, acc) && Unvisited(divs, i, acc)
    ensures KeepsOriginals(style0, PrefetchStep(acc, divs[i], reply))
    ensures Unvisited(divs, i + 1, PrefetchStep(acc, divs[i], reply))
  {
    UnrecordedUnchanged(style0, acc, divs[i]);
    forall j | i + 1 <= j < |divs|
      ensures divs[j] != divs[i]
    {
    }
  }

  /** With the divs distinct (they come from one `querySelectorAll`), the loop records
      each div's original style before changing it. */
  lemma {:induction false} KeepsOriginalsFrom(style0: Style, acc: Prefetch, divs: seq<NodeId>, relay: seq<RelayReply>, i: nat)
    requires i <= |divs| == |relay| && Distinct(divs)
    requires KeepsOriginals(style0, acc) && Unvisited(divs, i, acc)
    ensures KeepsOriginals(style0, PrefetchFrom(acc, divs, relay, i))
    decreases |divs| - i
  {
    if i < |divs| && acc.thrown.None? {
      StepKeepsOriginals(style0, acc, divs, i, relay[i]);
      KeepsOriginalsFrom(style0, PrefetchStep(acc, divs[i], relay[i]), divs, relay, i + 1);
    }
  }

  lemma PrefetchKeepsOriginals(style0: Style, divs: seq<NodeId>, relay: seq<RelayReply>)
    requires |divs| == |relay| && Distinct(divs)
    ensures KeepsOriginals(style0, Prefetched(style0, divs, relay))
  {
    KeepsOriginalsFrom(style0, Start(style0), divs, relay, 0);
  }

  /** The `finally` block's `originalStyles.forEach`: each entry's value written back to
      its div, entries having distinct divs. */
  function RestoredStyles(style: Style, originals: map<NodeId, string>): (r: Style)
    ensures r.Keys == style.Keys + originals.Keys
    ensures forall d :: d in originals ==> r[d] == originals[d]
    ensures forall d :: d in style && d !in originals ==> r[d] == style[d]
  {
    style + originals
  }

  /** Writing back one entry and dropping it from the entries still to write back changes
      nothing in the final result. */
  lemma RestoreOne(style: Style, rest: map<NodeId, string>, d: NodeId)
    requires d in rest
    ensures style[d := rest[d]] + (rest - {d}) == style + rest
  {
    var a, b := style[d := rest[d]] + (rest - {d}), style + rest;
    assert a.Keys == b.Keys;
    forall e | e in a
      ensures a[e] == b[e]
    {
    }
  }

  /** The pre-fetch loop followed by the `finally` block's restore leaves every image
      div's inline style as it was, whether or not a request threw. */
  lemma PrefetchThenRestore(style0: Style, divs: seq<NodeId>, relay: seq<RelayReply>)
    requires |divs| == |relay| && Distinct(divs)
    ensures var p := Prefetched(style0, divs, relay); RestoredStyles(p.style, p.originals) == style0
  {
    PrefetchKeepsOriginals(style0, divs, relay);
  }

  /** Every request names the URL of a recorded original style, and there is one request
      per recorded div. */
  ghost predicate RequestsRecorded(p: Prefetch) {
    && |p.requested| == |p.originals|
    && forall k :: 0 <= k < |p.requested| ==>
         exists d :: d in p.originals && CssUrl.ExtractUrlFromCss(Some(p.originals[d])) == Some(p.requested[k])
  }

  lemma StepRequestsRecorded(acc: Prefetch, d: NodeId, reply: RelayReply)
    requires RequestsRecorded(acc) && d !in acc.originals
    ensures RequestsRecorded(PrefetchStep(acc, d, reply))
  {
    var p := PrefetchStep(acc, d, reply);
    if p != acc {
      forall k | 0 <= k < |p.requested|
        ensures exists e :: e in p.originals && CssUrl.ExtractUrlFromCss(Some(p.originals[e])) == Some(p.requested[k])
      {
        if k < |acc.requested| {
          var e :| e in acc.originals && CssUrl.ExtractUrlFromCss(Some(acc.originals[e])) == Some(acc.requested[k]);
          assert p.originals[e] == acc.originals[e];
        } else {
          assert CssUrl.ExtractUrlFromCss(Some(p.originals[d])) == Some(p.requested[k]);
        }
      }
    }
  }

  lemma {:induction false} RequestsRecordedFrom(acc: Prefetch, divs: seq<NodeId>, relay: seq<RelayReply>, i: nat)
    requires i <= |divs| == |relay| && Distinct(divs)
    requires RequestsRecorded(acc) && Unvisited(divs, i, acc)
    ensures RequestsRecorded(PrefetchFrom(acc, divs, relay, i))
    decreases |divs| - i
  {
    if i < |divs| && acc.thrown.None? {
      var next := PrefetchStep(acc, divs[i], relay[i]);
      StepRequestsRecorded(acc, divs[i], relay[i]);
      assert Unvisited(divs, i + 1, next) by {
        forall j | i + 1 <= j < |divs|
          ensures divs[j] != divs[i]
        {
        }
      }
      RequestsRecordedFrom(next, divs, relay, i + 1);
    }
  }

  /** There are as many relay requests as recorded divs, and every requested URL is the one
      the original style of some recorded div names (the order is stated by
      `PrefetchRequestsInOrder`). */
  lemma PrefetchRequestsRecordedUrls(style0: Style, divs: seq<NodeId>, relay: seq<RelayReply>)
    requires |divs| == |relay| && Distinct(divs)
    ensures RequestsRecorded(Prefetched(style0, divs, relay))
  {
    RequestsRecordedFrom(Start(style0), divs, relay, 0);
  }

  /** Once a div has been passed, the rest of the loop leaves its style alone. */
  lemma {:induction false} StyleKeptFrom(acc: Prefetch, divs: seq<NodeId>, relay: seq<RelayReply>, i: nat, d: NodeId)
    requires i <= |divs| == |relay|
    requires forall k :: i <= k < |divs| ==> divs[k] != d
    ensures BackgroundImage(PrefetchFrom(acc, divs, relay, i).style, d) == BackgroundImage(acc.style, d)
    decreases |divs| - i
  {
    if i < |divs| && acc.thrown.None? {
      StyleKeptFrom(PrefetchStep(acc, divs[i], relay[i]), divs, relay, i + 1, d);
    }
  }

  /** The loop from div `i` on, with no rejection before div `j`: when the relay answers
      `divs[j]`, whose original style names an image, with a data URL, that div ends up
      showing the data URL. */
  lemma {:induction false} WritesReplyFrom(style0: Style, acc: Prefetch, divs: seq<NodeId>, relay: seq<RelayReply>,
                                           i: nat, j: nat)
    requires i <= j < |divs| == |relay| && Distinct(divs)
    requires KeepsOriginals(style0, acc) && Unvisited(divs, i, acc) && acc.thrown.None?
    requires forall k :: i <= k < j ==> !relay[k].RelayThrew?
    requires HasImageUrl(BackgroundImage(style0, divs[j]))
    requires relay[j].Replied? && relay[j].success && relay[j].dataUrl != ""
    ensures BackgroundImage(PrefetchFrom(acc, divs, relay, i).style, divs[j]) == CssUrl.CssUrlValue(relay[j].dataUrl)
    decreases j - i
  {
    if i < j {
      var next := PrefetchStep(acc, divs[i], relay[i]);
      StepKeepsOriginals(style0, acc, divs, i, relay[i]);
      assert next.thrown.None?;
      WritesReplyFrom(style0, next, divs, relay, i + 1, j);
    } else {
      WritesReplyAt(style0, acc, divs, relay, j);
    }
  }

  /** The visit of the answered div writes its data URL, and the rest of the loop keeps it. */
  lemma WritesReplyAt(style0: Style, acc: Prefetch, divs: seq<NodeId>, relay: seq<RelayReply>, j: nat)
    requires j < |divs| == |relay| && Distinct(divs)
    requires KeepsOriginals(style0, acc) && Unvisited(divs, j, acc) && acc.thrown.None?
    requires HasImageUrl(BackgroundImage(style0, divs[j]))
    requires relay[j].Replied? && relay[j].success && relay[j].dataUrl != ""
    ensures BackgroundImage(PrefetchFrom(acc, divs, relay, j).style, divs[j]) == CssUrl.CssUrlValue(relay[j].dataUrl)
  {
    var next := PrefetchStep(acc, divs[j], relay[j]);
    UnrecordedUnchanged(style0, acc, divs[j]);
    assert BackgroundImage(next.style, divs[j]) == CssUrl.CssUrlValue(relay[j].dataUrl);
    forall k | j + 1 <= k < |divs|
      ensures divs[k] != divs[j]
    {
    }
    StyleKeptFrom(next, divs, relay, j + 1, divs[j]);
  }

  /** content.js:231-233: every div whose original style names an image and which the
      relay answered with a data URL, before any rejection, ends the loop showing
      `url("<dataUrl>")`. */
  lemma PrefetchWritesReplies(style0: Style, divs: seq<NodeId>, relay: seq<RelayReply>, j: nat)
    requires j < |divs| == |relay| && Distinct(divs)
    requires forall k :: 0 <= k < j ==> !relay[k].RelayThrew?
    requires HasImageUrl(BackgroundImage(style0, divs[j]))
    requires relay[j].Replied? && relay[j].success && relay[j].dataUrl != ""
    ensures BackgroundImage(Prefetched(style0, divs, relay).style, divs[j]) == CssUrl.CssUrlValue(relay[j].dataUrl)
  {
    WritesReplyFrom(style0, Start(style0), divs, relay, 0, j);
  }

  /** The URLs the styles in `style0` name, one for each div whose style names one, in
      `divs` order. */
  function ImageUrls(style0: Style, divs: seq<NodeId>): seq<string>
    decreases |divs|
  {
    if divs == [] then []
    else
      var url := CssUrl.ExtractUrlFromCss(Some(BackgroundImage(style0, divs[|divs| - 1])));
      ImageUrls(style0, divs[..|divs| - 1]) + (if Present(url) then [url.value] else [])
  }

  /** From div `i` on, the loop extends the requests by the URLs of the divs it visits;
      it stops after the div whose request was rejected, or at the end. */
  lemma {:induction false} RequestsInOrderFrom(style0: Style, acc: Prefetch, divs: seq<NodeId>, relay: seq<RelayReply>, i: nat)
    requires i <= |divs| == |relay| && Distinct(divs)
    requires KeepsOriginals(style0, acc) && Unvisited(divs, i, acc) && acc.thrown.None?
    requires acc.requested == ImageUrls(style0, divs[..i])
    ensures var p := PrefetchFrom(acc, divs, relay, i);
            exists n :: && i <= n <= |divs| && p.requested == ImageUrls(style0, divs[..n])
                        && (p.thrown.None? ==> n == |divs|)
                        && (p.thrown.Some? ==> i < n && relay[n - 1] == RelayThrew(p.thrown.value))
    decreases |divs| - i
  {
    var p := PrefetchFrom(acc, divs, relay, i);
    if i == |divs| {
      assert p == acc;
    } else {
      var next := PrefetchStep(acc, divs[i], relay[i]);
      StepKeepsOriginals(style0, acc, divs, i, relay[i]);
      StepRequestsInOrder(style0, acc, divs, i, relay[i]);
      assert p == PrefetchFrom(next, divs, relay, i + 1);
      if next.thrown.Some? {
        assert p == next;
      } else {
        RequestsInOrderFrom(style0, next, divs, relay, i + 1);
      }
    }
  }

  /** One step appends the URL of the visited div, if its style names one. */
  lemma StepRequestsInOrder(style0: Style, acc: Prefetch, divs: seq<NodeId>, i: nat, reply: RelayReply)
    requires i < |divs|
    requires KeepsOriginals(style0, acc) && divs[i] !in acc.originals
    requires acc.requested == ImageUrls(style0, divs[..i])
    ensures PrefetchStep(acc, divs[i], reply).requested == ImageUrls(style0, divs[..i + 1])
    ensures acc.thrown.None? && PrefetchStep(acc, divs[i], reply).thrown.Some?
            ==> reply == RelayThrew(PrefetchStep(acc, divs[i], reply).thrown.value)
  {
    UnrecordedUnchanged(style0, acc, divs[i]);
    assert divs[..i + 1][..i] == divs[..i];
  }

  /** The relay is asked for the URLs of the image divs in order, one request per div
      whose style names an image: for all of them when no request was rejected, and
      otherwise up to and including the div whose request was rejected. */
  lemma PrefetchRequestsInOrder(style0: Style, divs: seq<NodeId>, relay: seq<RelayReply>)
    requires |divs| == |relay| && Distinct(divs)
    ensures var p := Prefetched(style0, divs, relay);
            exists n :: && 0 <= n <= |divs| && p.requested == ImageUrls(style0, divs[..n])
                        && (p.thrown.None? ==> n == |divs|)
                        && (p.thrown.Some? ==> 0 < n && relay[n - 1] == RelayThrew(p.thrown.value))
  {
    assert divs[..0] == [];
    RequestsInOrderFrom(style0, Start(style0), divs, relay, 0);
  }

  /** A div's style changes only when the relay returned a data URL for it, and then it is
      that data URL written as `url("…")`. */
  lemma {:induction false} WritesFetchedImagesFrom(acc: Prefetch, divs: seq<NodeId>, relay: seq<RelayReply>, i: nat, d: NodeId)
    requires i <= |divs| == |relay|
    requires d in acc.style && PrefetchFrom(acc, divs, relay, i).style[d] != acc.style[d]
    ensures exists k :: && i <= k < |divs| && divs[k] == d && relay[k].Replied? && relay[k].success
                        && relay[k].dataUrl != ""
                        && PrefetchFrom(acc, divs, relay, i).style[d] == CssUrl.CssUrlValue(relay[k].dataUrl)
    decreases |divs| - i
  {
    var next := PrefetchStep(acc, divs[i], relay[i]);
    var p := PrefetchFrom(acc, divs, relay, i);
    assert p == PrefetchFrom(next, divs, relay, i + 1);
    if p.style[d] != next.style[d] {
      WritesFetchedImagesFrom(next, divs, relay, i + 1, d);
    } else {
      assert divs[i] == d;
    }
  }

  lemma PrefetchWritesFetchedImages(style0: Style, divs: seq<NodeId>, relay: seq<RelayReply>, d: NodeId)
    requires |divs| == |relay|
    requires d in style0 && Prefetched(style0, divs, relay).style[d] != style0[d]
    ensures exists k :: && 0 <= k < |divs| && divs[k] == d && relay[k].Replied? && relay[k].success
                        && relay[k].dataUrl != ""
                        && Prefetched(style0, divs, relay).style[d] == CssUrl.CssUrlValue(relay[k].dataUrl)
  {
    WritesFetchedImagesFrom(Start(style0), divs, relay, 0, d);
  }

  /** Without a rejected request the loop visits every div and asks the relay for every
      div whose style names an image. */
  lemma {:induction false} RequestsEveryImageFrom(style0: Style, acc: Prefetch, divs: seq<NodeId>, relay: seq<RelayReply>, i: nat)
    requires i <= |divs| == |relay| && Distinct(divs)
    requires KeepsOriginals(style0, acc) && Unvisited(divs, i, acc) && acc.thrown.None?
    requires forall k :: i <= k < |relay| ==> !relay[k].RelayThrew?
    ensures PrefetchFrom(acc, divs, relay, i).thrown.None?
    ensures forall k :: i <= k < |divs| && HasImageUrl(BackgroundImage(style0, divs[k]))
                        ==> divs[k] in PrefetchFrom(acc, divs, relay, i).originals
    decreases |divs| - i
  {
    if i < |divs| {
      var next := PrefetchStep(acc, divs[i], relay[i]);
      StepKeepsOriginals(style0, acc, divs, i, relay[i]);
      assert next.thrown.None? by {
        assert !relay[i].RelayThrew?;
      }
      RequestsEveryImageFrom(style0, next, divs, relay, i + 1);
      assert divs[i] in next.originals <== HasImageUrl(BackgroundImage(style0, divs[i])) by {
        UnrecordedUnchanged(style0, acc, divs[i]);
      }
    }
  }

  lemma PrefetchRequestsEveryImage(style0: Style, divs: seq<NodeId>, relay: seq<RelayReply>)
    requires |divs| == |relay| && Distinct(divs)
    requires forall k :: 0 <= k < |relay| ==> !relay[k].RelayThrew?
    ensures Prefetched(style0, divs, relay).thrown.None?
    ensures forall k :: 0 <= k < |divs| && HasImageUrl(BackgroundImage(style0, divs[k]))
                        ==> divs[k] in Prefetched(style0, divs, relay).originals
  {
    RequestsEveryImageFrom(style0, Start(style0), divs, relay, 0);
  }

  /** `imagesProcessedCount` grows by at most one per visited div. */
  lemma {:induction false} ProcessedBoundFrom(acc: Prefetch, divs: seq<NodeId>, relay: seq<RelayReply>, i: nat)
    requires i <= |divs| == |relay|
    ensures acc.processed <= PrefetchFrom(acc, divs, relay, i).processed <= acc.processed + (|divs| - i)
    decreases |divs| - i
  {
    if i < |divs| && acc.thrown.None? {
      ProcessedBoundFrom(PrefetchStep(acc, divs[i], relay[i]), divs, relay, i + 1);
    }
  }

  /** The count of fetched images never exceeds the number of image divs. */
  lemma PrefetchProcessedBound(style0: Style, divs: seq<NodeId>, relay: seq<RelayReply>)
    requires |divs| == |relay|
    ensures Prefetched(style0, divs, relay).processed <= |divs|
  {
    ProcessedBoundFrom(Start(style0), divs, relay, 0);
  }

  /** The loop ends with an error only when the relay rejected a request. */
  lemma {:induction false} ThrownByRelayFrom(acc: Prefetch, divs: seq<NodeId>, relay: seq<RelayReply>, i: nat)
    requires i <= |divs| == |relay| && acc.thrown.None?
    requires PrefetchFrom(acc, divs, relay, i).thrown.Some?
    ensures exists k :: i <= k < |relay| && relay[k] == RelayThrew(PrefetchFrom(acc, divs, relay, i).thrown.value)
    decreases |divs| - i
  {
    var next := PrefetchStep(acc, divs[i], relay[i]);
    if next.thrown.None? {
      ThrownByRelayFrom(next, divs, relay, i + 1);
    } else {
      assert relay[i] == RelayThrew(next.thrown.value);
    }
  }

  /** The first rejection of a request for a div whose style names an image ends the loop
      with that rejection. */
  lemma {:induction false} StopsAtRejectionFrom(style0: Style, acc: Prefetch, divs: seq<NodeId>, relay: seq<RelayReply>, i: nat, j: nat)
    requires i <= j < |divs| == |relay| && Distinct(divs)
    requires KeepsOriginals(style0, acc) && Unvisited(divs, i, acc) && acc.thrown.None?
    requires forall k :: i <= k < j ==> !relay[k].RelayThrew?
    requires HasImageUrl(BackgroundImage(style0, divs[j])) && relay[j].RelayThrew?
    ensures PrefetchFrom(acc, divs, relay, i).thrown == Some(relay[j].error)
    decreases j - i
  {
    var next := PrefetchStep(acc, divs[i], relay[i]);
    UnrecordedUnchanged(style0, acc, divs[i]);
    if i < j {
      StepKeepsOriginals(style0, acc, divs, i, relay[i]);
      assert next.thrown.None? by {
        assert !relay[i].RelayThrew?;
      }
      StopsAtRejectionFrom(style0, next, divs, relay, i + 1, j);
    }
  }

  /** `toPng`'s result is usable: neither empty nor the empty-canvas `data:,`. */
  function ValidImage(dataUrl: string): (valid: bool)
    ensures valid ==> Truthy(dataUrl)
    ensures dataUrl == "data:," ==> !valid
    ensures StartsWith(dataUrl, "data:image/") ==> valid
  {
    dataUrl != "" && dataUrl != "data:,"
  }

  /** The error message for a non-2xx OCR reply (content.js:269-272). */
  function OcrApiError(apiMessage: Option<string>, statusText: string): (m: string)
    ensures StartsWith(m, OcrApiErrorPrefix)
    ensures Present(apiMessage) ==> m == OcrApiErrorPrefix + apiMessage.value
    ensures !Present(apiMessage) ==> m == OcrApiErrorPrefix + statusText
  {
    OcrApiErrorPrefix + OrElse(apiMessage, statusText)
  }

  /** Lines 246-284 after the images are detached: rasterise, call the OCR endpoint,
      select the text; the text, or the error thrown. */
  function Recognise(raster: Raster, ocr: OcrReply): (r: Result<string, Chapter.Error>)
    ensures r.Ok? <==> && raster.Rendered? && ValidImage(raster.dataUrl) && ocr.Answered?
                       && Ocr.SelectText(ocr.content).Ok?
    ensures r.Ok? ==> r.value != "" && Trim(r.value) == r.value
    ensures r.Ok? ==> r.value == Ocr.SelectText(ocr.content).value
    ensures raster.LibraryMissing? ==> r == Err(Thrown(LibraryMissingMessage))
    ensures raster.RenderThrew? ==> r == Err(raster.error)
    ensures (raster.Rendered? && !ValidImage(raster.dataUrl)) ==> r == Err(Thrown(InvalidImageMessage))
    ensures (raster.Rendered? && ValidImage(raster.dataUrl) && ocr.HttpFailed?)
              ==> r == Err(Thrown(OcrApiError(ocr.apiMessage, ocr.statusText)))
    ensures (raster.Rendered? && ValidImage(raster.dataUrl) && ocr.FetchThrew?) ==> r == Err(ocr.error)
    ensures (&& raster.Rendered? && ValidImage(raster.dataUrl) && ocr.Answered?
             && Ocr.SelectText(ocr.content).Err?) ==> r == Err(Thrown(Ocr.NoTextMessage))
  {
    match raster
    case LibraryMissing => Err(Thrown(LibraryMissingMessage))
    case RenderThrew(e) => Err(e)
    case Rendered(dataUrl) =>
      if !ValidImage(dataUrl) then Err(Thrown(InvalidImageMessage))
      else
        match ocr
        case FetchThrew(e) => Err(e)
        case HttpFailed(apiMessage, statusText) => Err(Thrown(OcrApiError(apiMessage, statusText)))
        case Answered(content) =>
          match Ocr.SelectText(content)
          case Ok(text) => Ok(text)
          case Err(message) => Err(Thrown(message))
  }

  /** What the `try` block ends with: the error that ended the pre-fetch loop, or else
      the outcome of rasterising and OCR. */
  function Outcome(style0: Style, divs: seq<NodeId>, relay: seq<RelayReply>, raster: Raster, ocr: OcrReply): (r: Result<string, Chapter.Error>)
    requires |divs| == |relay|
    ensures Prefetched(style0, divs, relay).thrown.Some? ==> r == Err(Prefetched(style0, divs, relay).thrown.value)
    ensures Prefetched(style0, divs, relay).thrown.None? ==> r == Recognise(raster, ocr)
  {
    var p := Prefetched(style0, divs, relay);
    if p.thrown.Some? then Err(p.thrown.value) else Recognise(raster, ocr)
  }

  /** The first relay rejection for a div with an image is reported as it is, and nothing
      after it is attempted. */
  lemma RelayErrorReported(style0: Style, divs: seq<NodeId>, relay: seq<RelayReply>, raster: Raster, ocr: OcrReply, j: nat)
    requires j < |divs| == |relay| && Distinct(divs)
    requires forall k :: 0 <= k < j ==> !relay[k].RelayThrew?
    requires HasImageUrl(BackgroundImage(style0, divs[j])) && relay[j].RelayThrew?
    ensures Outcome(style0, divs, relay, raster, ocr) == Err(relay[j].error)
  {
    StopsAtRejectionFrom(style0, Start(style0), divs, relay, 0, j);
  }

  /** A run fails in the pre-fetch loop only with an error the relay returned. */
  lemma PrefetchErrorFromRelay(style0: Style, divs: seq<NodeId>, relay: seq<RelayReply>)
    requires |divs| == |relay| && Prefetched(style0, divs, relay).thrown.Some?
    ensures exists k :: 0 <= k < |relay| && relay[k] == RelayThrew(Prefetched(style0, divs, relay).thrown.value)
  {
    ThrownByRelayFrom(Start(style0), divs, relay, 0);
  }

  /** What one run reports: the reply to the popup, the text copied, the
      `updatePopupDisplay` broadcast, and the URLs requested from the relay in order. */
  datatype VipReport = VipReport(reply: Option<Chapter.Response>, copied: Option<string>,
                                 broadcast: Option<Chapter.Response>, requested: seq<string>)

  /** An early return: a failure reply to the popup when it asked, nothing else. */
  function EarlyReturn(fromPopup: bool, failure: Chapter.Response): (r: VipReport)
    ensures r.copied.None? && r.broadcast.None? && r.requested == []
    ensures r.reply.Some? <==> fromPopup
    ensures r.reply.Some? ==> r.reply.value == failure
  {
    VipReport(if fromPopup then Some(failure) else None, None, None, [])
  }

  /** The report of a run that got past the guards (content.js:221-318): its outcome
      delivered under `title`, and the URLs the pre-fetch loop requested. */
  function Completed(title: string, style0: Style, divs: seq<NodeId>, relay: seq<RelayReply>, raster: Raster,
                     ocr: OcrReply, fromPopup: bool, clipboard: Chapter.ClipboardWrite): (r: VipReport)
    requires |divs| == |relay|
    ensures r.broadcast.Some? && (r.reply.Some? <==> fromPopup)
    ensures fromPopup ==> r.reply == r.broadcast
    ensures r.broadcast.value.Success? <==> Outcome(style0, divs, relay, raster, ocr).Ok? && (fromPopup || clipboard.Written?)
    ensures r.broadcast.value.Failure? ==> r.broadcast.value.knownTitle == Some(title)
    ensures r.broadcast.value.Success? ==>
              r.broadcast.value == Chapter.Success(title, Outcome(style0, divs, relay, raster, ocr).value)
    ensures Outcome(style0, divs, relay, raster, ocr).Err? ==>
              var e := Outcome(style0, divs, relay, raster, ocr).error;
              r.broadcast.value == Chapter.Failure(Chapter.SpecificError(e), Some(title))
    ensures Outcome(style0, divs, relay, raster, ocr).Ok? && !fromPopup && clipboard.WriteThrew? ==>
              r.broadcast.value == Chapter.Failure(Chapter.SpecificError(clipboard.error), Some(title))
    ensures r.copied.Some? <==> !fromPopup && Outcome(style0, divs, relay, raster, ocr).Ok? && clipboard.Written?
    ensures r.copied.Some? ==> var o := Outcome(style0, divs, relay, raster, ocr);
                               o.Ok? && r.copied.value == Chapter.FormatChapter(title, o.value)
    ensures r.requested == Prefetched(style0, divs, relay).requested
  {
    var d := Chapter.Deliver(title, Outcome(style0, divs, relay, raster, ocr), fromPopup, clipboard);
    VipReport(d.reply, d.copied, Some(d.broadcast), Prefetched(style0, divs, relay).requested)
  }

  /** The injected action button: whether it is disabled, and its caption. */
  datatype Button = Button(disabled: bool, caption: string)

  /** The button, when there is one, enabled again under its VIP caption. */
  function Reset(b: Option<Button>): (r: Option<Button>)
    ensures r.Some? <==> b.Some?
    ensures r.Some? ==> !r.value.disabled && r.value.caption == Chapter.VipButtonLabel
  {
    if b.Some? then Some(Button(false, Chapter.VipButtonLabel)) else None
  }

  /** The page as the VIP pipeline sees it: the element tree, each element's inline
      background image, and the injected action button. */
  class Page {
    var children: Children
    var style: Style
    var button: Option<Button>

    /** The button, when there is one, re-enabled under its VIP caption. */
    method ResetButton()
      modifies this
      ensures button == Reset(old(button))
      ensures children == old(children) && style == old(style)
    {
      if button.Some? {
        button := Some(Button(false, Chapter.VipButtonLabel));
      }
    }

    /** The pre-fetch loop (content.js:222-238). */
    method PrefetchImages(divs: seq<NodeId>, relay: seq<RelayReply>) returns (p: Prefetch)
      requires |relay| == |divs|
      modifies this
      ensures p == Prefetched(old(style), divs, relay)
      ensures style == p.style
      ensures children == old(children)
      ensures button == old(button)
    {
      p := Start(style);
      ghost var goal := Prefetched(style, divs, relay);
      var i := 0;
      while i < |divs| && p.thrown.None?
        invariant 0 <= i <= |divs|
        invariant PrefetchFrom(p, divs, relay, i) == goal
        modifies {}
      {
        p := VisitImageDiv(p, divs[i], relay[i]);
        i := i + 1;
      }
      style := p.style;
    }

    /** Detaching the advertising images (content.js:240-244), recording for each its
      parent and the sibling that followed it at that moment. */
    method RemoveProblemImages(imgs: seq<NodeId>) returns (removed: seq<Removal>)
      requires TreeShaped(children) && Distinct(imgs)
      requires forall x :: x in imgs ==> Attached(children, x)
      modifies this
      ensures children == WithoutAll(old(children), Elems(imgs))
      ensures RecordsRemovals(old(children), imgs, removed)
      ensures style == old(style)
      ensures button == old(button)
    {
      ghost var c0 := children;
      var c: Children := children;
      removed := [];
      var k := 0;
      RemovedNothing(c0, imgs);
      while k < |imgs|
        invariant RemovedSoFar(c0, imgs, k, c, removed)
        modifies {}
      {
        var x := imgs[k];
        NextStillAttached(c0, imgs, k, c, removed);
        var p :| p in c && x in c[p];
        var next := Head(After(c[p], x));
        RemovedOneMore(c0, imgs, k, c, removed, p);
        c := c[p := RemoveChild(c[p], x)];
        removed := removed + [Removal(x, p, next)];
        k := k + 1;
      }
      assert imgs[..|imgs|] == imgs;
      children := c;
    }

    /** The `finally` block's style restore (content.js:321-324). */
    method RestoreStyles(originals: map<NodeId, string>)
      modifies this
      ensures style == RestoredStyles(old(style), originals)
      ensures children == old(children)
      ensures button == old(button)
    {
      var st: Style, rest: map<NodeId, string> := style, originals;
      while rest != map[]
        invariant st + rest == old(style) + originals
        modifies {}
        decreases rest.Keys
      {
        var d :| d in rest;
        RestoreOne(st, rest, d);
        st := st[d := rest[d]];
        rest := rest - {d};
      }
      style := st;
    }

    /** The part of the `try` block that touches the page (content.js:221-284): the
      pre-fetch loop, then, unless a relay request threw, the removal of the advertising
      images and the recognition. */
    method Attempt(divs: seq<NodeId>, relay: seq<RelayReply>, imgs: seq<NodeId>, raster: Raster, ocr: OcrReply)
      returns (pre: Prefetch, removed: seq<Removal>, outcome: Result<string, Chapter.Error>)
      requires |relay| == |divs|
      requires TreeShaped(children) && Distinct(imgs)
      requires forall x :: x in imgs ==> Attached(children, x)
      modifies this
      ensures pre == Prefetched(old(style), divs, relay) && style == pre.style
      ensures outcome == Outcome(old(style), divs, relay, raster, ocr)
      ensures pre.thrown.Some? ==> children == old(children) && removed == []
      ensures pre.thrown.None? ==> children == WithoutAll(old(children), Elems(imgs))
                                   && RecordsRemovals(old(children), imgs, removed)
      ensures button == old(button)
    {
      pre := PrefetchImages(divs, relay);
      removed := [];
      if pre.thrown.Some? {
        outcome := Err(pre.thrown.value);
      } else {
        removed := RemoveProblemImages(imgs);
        outcome := Recognise(raster, ocr);
      }
    }

    /** The `finally` block (content.js:319-337): the original styles written back, the
      images re-inserted last record first, and the button reset when that went through. */
    method Cleanup(originals: map<NodeId, string>, removed: seq<Removal>) returns (ok: bool)
      modifies this
      ensures style == RestoredStyles(old(style), originals)
      ensures (children, ok) == ReinsertReverse(old(children), removed)
      ensures button == if ok then Reset(old(button)) else old(button)
    {
      RestoreStyles(originals);
      children, ok := ReinsertLastFirst(children, removed);
      if ok {
        ResetButton();
      }
    }

    /** The `finally` block as written (content.js:319-337): the original styles written
      back, the images re-inserted in the order they were removed, and the button reset
      only when no `insertBefore` threw. */
    method CleanupAsWritten(originals: map<NodeId, string>, removed: seq<Removal>) returns (ok: bool)
      modifies this
      ensures style == RestoredStyles(old(style), originals)
      ensures (children, ok) == Reinsert(old(children), removed)
      ensures button == if ok then Reset(old(button)) else old(button)
    {
      RestoreStyles(originals);
      children, ok := ReinsertInOrder(children, removed);
      if ok {
        ResetButton();
      }
    }

    /** The page state the `finally` block as written leaves: after a prefetch error
      nothing was detached and re-insertion has nothing to do; otherwise the tree is the
      in-order re-insertion into the page with the images detached, and it is the
      original page whenever no removed image directly followed another. */
    static lemma AsWrittenOutcome(c0: Children, imgs: seq<NodeId>, removed: seq<Removal>, thrown: bool,
                                  detached: Children, c: Children, ok: bool)
      requires TreeShaped(c0) && Distinct(imgs)
      requires thrown ==> detached == c0 && removed == []
      requires !thrown ==> detached == WithoutAll(c0, Elems(imgs)) && RecordsRemovals(c0, imgs, removed)
      requires (c, ok) == Reinsert(detached, removed)
      ensures thrown ==> ok && c == c0
      ensures NoRemovedFollowsRemoved(c0, imgs) ==> ok && c == c0
    {
      if !thrown && NoRemovedFollowsRemoved(c0, imgs) {
        ForwardRestores(c0, imgs, removed);
      }
    }

    /** The `try` / `catch` / `finally` of `handleVipChapter` as written (content.js:221-337):
      the styles always come back; the element tree is what re-inserting the removal
      records in order makes of the page with the images detached, and the button is reset
      only when that re-insertion succeeded. The tree and the button come back exactly
      when no removed image directly followed another removed image. */
    method RunPipelineAsWritten(title: string, fromPopup: bool, divs: seq<NodeId>, relay: seq<RelayReply>,
                                imgs: seq<NodeId>, raster: Raster, ocr: OcrReply, clipboard: Chapter.ClipboardWrite)
      returns (report: VipReport, removed: seq<Removal>, ok: bool)
      requires |relay| == |divs| && Distinct(divs)
      requires TreeShaped(children) && Distinct(imgs)
      requires forall x :: x in imgs ==> Attached(children, x)
      modifies this
      ensures style == old(style)
      ensures Prefetched(old(style), divs, relay).thrown.Some?
              ==> removed == [] && ok && children == old(children)
      ensures Prefetched(old(style), divs, relay).thrown.None?
              ==> && RecordsRemovals(old(children), imgs, removed)
                  && (children, ok) == Reinsert(WithoutAll(old(children), Elems(imgs)), removed)
      ensures button == if ok then Reset(old(button)) else old(button)
      ensures NoRemovedFollowsRemoved(old(children), imgs)
              ==> children == old(children) && button == Reset(old(button))
      ensures report == Completed(title, old(style), divs, relay, raster, ocr, fromPopup, clipboard)
    {
      ghost var style0, children0 := style, children;
      var pre, outcome;
      pre, removed, outcome := Attempt(divs, relay, imgs, raster, ocr);
      var delivery := Chapter.Deliver(title, outcome, fromPopup, clipboard);
      PrefetchThenRestore(style0, divs, relay);
      ghost var detached := children;
      ok := CleanupAsWritten(pre.originals, removed);
      AsWrittenOutcome(children0, imgs, removed, pre.thrown.Some?, detached, children, ok);
      report := VipReport(delivery.reply, delivery.copied, Some(delivery.broadcast), pre.requested);
    }

    /** The `try` / `catch` / `finally` of `handleVipChapter` (content.js:221-337), with the
      `finally` block's re-insertion done last record first. */
    method RunPipeline(title: string, fromPopup: bool, divs: seq<NodeId>, relay: seq<RelayReply>, imgs: seq<NodeId>,
                       raster: Raster, ocr: OcrReply, clipboard: Chapter.ClipboardWrite)
      returns (report: VipReport)
      requires |relay| == |divs| && Distinct(divs)
      requires TreeShaped(children) && Distinct(imgs)
      requires forall x :: x in imgs ==> Attached(children, x)
      modifies this
      ensures style == old(style) && children == old(children)
      ensures button == Reset(old(button))
      ensures report == Completed(title, old(style), divs, relay, raster, ocr, fromPopup, clipboard)
    {
      ghost var style0, children0 := style, children;
      var pre, removed, outcome := Attempt(divs, relay, imgs, raster, ocr);
      var delivery := Chapter.Deliver(title, outcome, fromPopup, clipboard);
      PrefetchThenRestore(style0, divs, relay);
      if pre.thrown.None? {
        ReverseRestores(children0, imgs, removed);
      }
      var ok := Cleanup(pre.originals, removed);
      report := VipReport(delivery.reply, delivery.copied, Some(delivery.broadcast), pre.requested);
    }

    /** `handleVipChapter(apiKey, sendResponseToPopup)`: `fromPopup` says whether the popup
      asked; `titleText` is the title element's visible text; `divs` and `imgs` are what
      the two `querySelectorAll` calls in the image area return. */
    method HandleVipChapter(apiKey: Option<string>, fromPopup: bool, titleText: Option<string>,
                            areaFound: bool, divs: seq<NodeId>, relay: seq<RelayReply>, imgs: seq<NodeId>,
                            raster: Raster, ocr: OcrReply, clipboard: Chapter.ClipboardWrite)
      returns (report: VipReport)
      requires |relay| == |divs| && Distinct(divs)
      requires TreeShaped(children) && Distinct(imgs)
      requires forall x :: x in imgs ==> Attached(children, x)
      modifies this
      ensures style == old(style) && children == old(children)
      ensures button == Reset(old(button))
      ensures !Present(apiKey) ==> report == EarlyReturn(fromPopup, Chapter.Failure(NoApiKeyMessage, None))
      ensures (Present(apiKey) && !areaFound)
                ==> report == EarlyReturn(fromPopup, Chapter.Failure(NoImageAreaMessage, Some(Chapter.ChapterTitle(titleText, Chapter.UntitledVip))))
      ensures (Present(apiKey) && areaFound && divs == [])
                ==> report == EarlyReturn(fromPopup, Chapter.Failure(NoImageDivsMessage, Some(Chapter.ChapterTitle(titleText, Chapter.UntitledVip))))
      ensures (Present(apiKey) && areaFound && divs != [])
                ==> report == Completed(Chapter.ChapterTitle(titleText, Chapter.UntitledVip), old(style), divs, relay,
                                        raster, ocr, fromPopup, clipboard)
    {
      if !Present(apiKey) {
        ResetButton();
        report := EarlyReturn(fromPopup, Chapter.Failure(NoApiKeyMessage, None));
        return;
      }
      if button.Some? {
        button := Some(Button(true, FetchingLabel));
      }
      var title := Chapter.ChapterTitle(titleText, Chapter.UntitledVip);
      if !areaFound {
        ResetButton();
        report := EarlyReturn(fromPopup, Chapter.Failure(NoImageAreaMessage, Some(title)));
        return;
      }
      if divs == [] {
        ResetButton();
        report := EarlyReturn(fromPopup, Chapter.Failure(NoImageDivsMessage, Some(title)));
        return;
      }
      report := RunPipeline(title, fromPopup, divs, relay, imgs, raster, ocr, clipboard);
    }
  }
}

=== FILE: wrappers.dfy ===
/** Option and Result: the model's stand-ins for JavaScript's `null`/`undefined`
    and for a value-or-thrown-error. */
module Wrappers {

  datatype Option<+T> = None | Some(value: T)

  datatype Result<+T, +E> = Ok(value: T) | Err(error: E)
}
